=== FILE: README.md ===
# wifi_speed: link-rate parsing and speed-test normalisation

A Dafny model of the logic in `wifi_speed.py` that turns tool output into
numbers. It has four parts.

- **Link-rate parsers.** The parsers for `netsh wlan show interfaces`
  (Windows), `iwconfig` / `iw dev wlan0 link` / `nmcli` (Linux) and
  `airport -I` (macOS). Each parser is an ordered cascade of `re.search`
  calls whose first capture goes through `float()`.
- **Cascade and dispatch.** The Linux source cascade, and the platform
  dispatch of `get_link_speed`, which turns every exception into an unknown
  reading.
- **JSON normalisation and retry.** The normalisation of the JSON document a
  speed-test CLI prints, and the loop over three argument variants in which
  the first complete result wins.
- **`human_bps`.** The scaling of a bit rate into bps, Kbps, Mbps or Gbps.

Modules, in dependency order:

- `Wrappers`: `Option` and `Result`.
- `Text`: ASCII digit and whitespace classes, case folding, `startswith`
  and `str.strip()`.
- `Decimal`: `float()` on a token of `[\d\.]` characters, as exact
  decimal-to-real conversion.
- `Regex`: the fragment of Python's `re` the parsers use.
  - `Match` is a backtracking matcher that follows Python's priority order.
    Greedy repeats try their longest run first; `?` tries one character
    before none.
  - `Scan` never backtracks. `MatchIsScan` proves the two agree on
    well-formed patterns.
  - `Search` is `re.search`, the leftmost match.
- `LinkSpeed`: the patterns, the three parsers, the Linux cascade and the
  dispatch.
  - The shell runner is a parameter `Runner = string -> string`: the
    command's stdout followed by its stderr, as `run_cmd` returns them. A
    non-zero exit status raises nothing. The iwconfig, iw and airport
    commands redirect their stderr to `/dev/null` (wifi_speed.py:85, 90,
    114), so only netsh's and nmcli's error text can reach a parser.
  - `""` comes from an exception, such as the six-second timeout, or from
    a command that prints nothing. Examples are a missing iwconfig, or
    `grep '^yes'` finding no active network (wifi_speed.py:95).
  - A parser's result is a `Reading`, one of three things:
    - a rate;
    - `None`;
    - `Failure(ValueError(token))`, which models the exception `float()`
      raises.
- `PyJson`: JSON values and the Python operations the normaliser applies
  to them: truthiness, `dict.get` with a default, `or`, indexing and
  `float()`.
- `SpeedTest`: the normalisation of one parsed document, as written
  (`Normalise`) and corrected (`NormaliseIntended`).
- `SpeedTestCli`: one CLI attempt, the loop over the argument variants, and
  `run_speedtest`'s choice between the library and the CLI.
  - These are parameters: running a process (`Exec`), `json.loads`
    (`Loads`), `shutil.which`, the library's outcome, and the normaliser.
  - The normaliser is a parameter, so the loop can be read with either
    `SpeedTest.Normalise` or `SpeedTest.NormaliseIntended`.
- `HumanUnits`: `human_bps`.

## Model

| member | source | states |
|---|---|---|
| Regex.Search | wifi_speed.py:56 | `re.search` finds nothing exactly when no position of the text starts a match. A reported match starts at the leftmost such position and carries that position's groups. |
| Regex.SearchGroup | wifi_speed.py:57-58 | `m.group(1)` is available exactly when the pattern occurs somewhere in the text. |
| Regex.MatchIsScan | wifi_speed.py:56 | For every pattern in which no repeated class can also begin what follows it, the backtracking matcher gives the same answer, with the same groups, as greedy scanning without backtracking. |
| Regex.LeadingGroupIsMaximalRun | wifi_speed.py:63-65 | A pattern that opens with `([\d\.]+)` captures, at its leftmost match, a maximal digit/dot run. The run starts the text or follows a character outside the class, and extends as far as the class does. |
| Decimal.ParseDecimal | wifi_speed.py:58 | `float()` accepts a `[\d\.]` token exactly when it has at most one dot and at least one digit. The value is never negative. |
| Decimal.ParseShowNat | wifi_speed.py:58 | `float(str(n)) == n` for every natural number `n`. |
| Decimal.TrailingZero | wifi_speed.py:58 | A zero appended after the decimal point does not change the value. |
| Decimal.FractionValue | wifi_speed.py:58 | `float()` of digits, a dot and digits is the number the digits spell without the dot, divided by ten to the number of fraction digits. |
| Decimal.ParseFractionExample | wifi_speed.py:58 | The rate token `144.4` reads as exactly 144.4. |
| Text.Strip | wifi_speed.py:153 | `strip()` returns the input minus whitespace prefixes and suffixes. The result neither begins nor ends with whitespace. |
| Text.StripUnique | wifi_speed.py:153 | Text that neither begins nor ends with whitespace comes back unchanged from any whitespace padding. |
| Text.StripBlank | wifi_speed.py:154 | `strip()` yields the empty string exactly for all-whitespace input. |
| LinkSpeed.FloatToken | wifi_speed.py:58 | Converting a captured token succeeds exactly when `float()` accepts it, and gives a non-negative rate. Otherwise it is a `ValueError`. |
| LinkSpeed.FirstOf | wifi_speed.py:54-66 | A search cascade reads `None` exactly when none of its patterns occurs. Any rate it yields is non-negative. |
| LinkSpeed.FirstOfPicks | wifi_speed.py:54-66 | The first pattern of the cascade that occurs decides the reading. The patterns before it contribute only their absence; the patterns after it are not consulted. |
| LinkSpeed.ParseWindowsNetsh | wifi_speed.py:54-66 | The Windows reading is `None` exactly when neither field pattern nor the bare `<n> Mbps` pattern occurs. |
| LinkSpeed.WindowsReceiveWins | wifi_speed.py:56-58 | A `Receive rate (Mbps) : n` field, in any letter case, decides the reading whatever follows it. Later transmit fields and `Mbps` tokens are ignored. A token `float()` rejects raises instead of falling back. |
| LinkSpeed.WindowsTransmitFallback | wifi_speed.py:59-61 | The transmit field is read only when no receive field occurs. |
| LinkSpeed.WindowsTransmitWins | wifi_speed.py:59-61 | A `Transmit rate (Mbps) : n` field at the start of the output, in any letter case, decides the reading when no receive field occurs anywhere in the output. |
| LinkSpeed.WindowsBareFallback | wifi_speed.py:62-65 | With neither field present, the reading is the first maximal digit/dot run that optional whitespace and `Mbps` follow. |
| LinkSpeed.LowerCaseReceiveField | wifi_speed.py:56 | A lower-case `receive rate (mbps) : 300` line reads 300. |
| LinkSpeed.MalformedReceiveIsUnknown | wifi_speed.py:118-128 | A receive token `1.2.3` makes the Windows parser raise, even with a valid transmit field after it, and `get_link_speed` reports `None`. |
| LinkSpeed.TransmitSampleReading | wifi_speed.py:59-61 | `Transmit rate (Mbps) : 54`, with no receive field, reads 54. |
| LinkSpeed.BareSampleReading | wifi_speed.py:62-65 | `54 Mbps`, with neither field, reads 54. |
| LinkSpeed.ParseLinuxIwconfig | wifi_speed.py:72-81 | The iwconfig/iw reading is `None` exactly when neither the `Bit Rate` pattern nor the `tx/rx bitrate` pattern occurs. |
| LinkSpeed.IwconfigBitRateWins | wifi_speed.py:74-76 | A `Bit Rate[:=] n Mb` field, in any letter case, decides the reading whatever follows it, including a `tx bitrate` line. |
| LinkSpeed.IwconfigTxFallback | wifi_speed.py:77-80 | The `tx`/`rx bitrate` line is read only when no `Bit Rate` field occurs. |
| LinkSpeed.IwconfigSampleReading | wifi_speed.py:73-76 | An iwconfig listing with `Bit Rate=54 Mb/s` reads 54. |
| LinkSpeed.IwTxSampleReading | wifi_speed.py:77-80 | iw's `tx bitrate: 144.4 MBit/s` reads exactly 144.4. The `Bit Rate` search misses it and the second search captures the fractional token. |
| LinkSpeed.NmcliReading | wifi_speed.py:96-99 | The nmcli step reads `None` exactly when no `<digits/dots>M` token occurs. |
| LinkSpeed.NmcliFirstToken | wifi_speed.py:96-98 | The nmcli reading is `float()` of the first maximal digit/dot run at the leftmost match. |
| LinkSpeed.NmcliTokenBeforeM | wifi_speed.py:96 | The run the nmcli search captures is directly followed by `M`. |
| LinkSpeed.NmcliSampleReading | wifi_speed.py:94-98 | `yes:HomeNet:130M` reads 130: the search skips the SSID and captures the run before the `M`. |
| LinkSpeed.LinuxLinkSpeed | wifi_speed.py:83-99 | The Linux cascade never yields a negative rate. It yields 0 only when nmcli reads 0, because a zero from iwconfig or iw is passed over. |
| LinkSpeed.LinuxFirstDecides | wifi_speed.py:85-88 | A truthy or raising iwconfig reading is the result, and the outputs of iw and nmcli then make no difference. |
| LinkSpeed.LinuxZeroLikeSilence | wifi_speed.py:86-93 | An iwconfig reading of `None` or 0 gives the same result as iwconfig printing nothing. |
| LinkSpeed.LinuxCascadeOrder | wifi_speed.py:83-99 | iw decides when iwconfig was falsy and iw is truthy or raises. nmcli decides when both were falsy. A falsy final result is always nmcli's. |
| LinkSpeed.LinuxZeroIsUnknown | wifi_speed.py:83-99 | iwconfig reporting `Bit Rate=0 Mb/s`, with iw and nmcli silent, gives `None` on Linux, not 0. |
| LinkSpeed.ParseMacosAirport | wifi_speed.py:101-109 | The macOS reading is `None` exactly when neither `lastTxRate:` nor `<n> Mb/s` occurs. |
| LinkSpeed.MacosLastTxRateWins | wifi_speed.py:103-105 | An exactly spelled `lastTxRate:` field decides the reading, after indentation and whatever follows. |
| LinkSpeed.MacosMbPerSecFallback | wifi_speed.py:106-108 | `<n> Mb/s` is read only when no `lastTxRate:` field occurs. It gives the first maximal run that whitespace and `Mb/s` follow. |
| LinkSpeed.AirportSampleReading | wifi_speed.py:102-105 | The indented line `lastTxRate: 866` reads 866. |
| LinkSpeed.AirportRateSampleReading | wifi_speed.py:106-108 | `rate: 866 Mb/s`, with no `lastTxRate:` field, reads 866. |
| LinkSpeed.LowerCaseAirportIsUnknown | wifi_speed.py:103-109 | The macOS searches are case-sensitive: `lasttxrate: 5` reads `None`. |
| LinkSpeed.EmptyOutputIsUnknown | wifi_speed.py:47-52 | Empty output reads `None` in every parser. `run_cmd` returns it when running the command raises (a timeout, say) or when the command prints nothing. |
| LinkSpeed.GetLinkSpeed | wifi_speed.py:118-129 | On `win`, `linux` and `darwin` (tested in that order) the platform's reading is reported when it is a rate, and `None` when it is `None` or raised. Any other platform gets `None`. A reported rate is never negative. |
| LinkSpeed.LinuxReports | wifi_speed.py:83-88 | A non-zero iwconfig rate on `linux` is what `get_link_speed` reports. |
| LinkSpeed.MacosReports | wifi_speed.py:110-116 | The airport reading on `darwin` is what `get_link_speed` reports. |
| LinkSpeed.LinuxSampleSpeed | wifi_speed.py:83-88 | A Linux host whose iwconfig prints `Bit Rate=54 Mb/s` reports 54. |
| LinkSpeed.WindowsSampleSpeed | wifi_speed.py:54-66 | A Windows host whose netsh prints a lower-case receive-rate field of 300 reports 300. |
| LinkSpeed.MacosSampleSpeed | wifi_speed.py:110-116 | A macOS host whose airport tool prints `lastTxRate: 866` reports 866. |
| LinkSpeed.DispatchReadsOnlyItsTool | wifi_speed.py:118-129 | Each platform reads only its own commands' output: changing any other command's output changes nothing. Any other platform gets `None`. |
| PyJson.Or | wifi_speed.py:158 | `a or b` is truthy exactly when `a` or `b` is, and it is one of the two. |
| PyJson.Index | wifi_speed.py:165 | `v[key]` succeeds exactly on an object holding `key`. Such an object is truthy. |
| PyJson.FloatOfString | wifi_speed.py:169 | `float()` of a string accepts exactly an optionally signed decimal once whitespace is stripped. A negative result needs a leading `-`. |
| PyJson.FloatOfShownNat | wifi_speed.py:169 | `float()` of a whitespace-padded `str(n)` is `n`. |
| PyJson.FloatOfNegatedNat | wifi_speed.py:169 | `float()` of a whitespace-padded `-` followed by `str(n)` is `-n`. |
| PyJson.FloatOfSigned | wifi_speed.py:169 | `float()` of a whitespace-padded token with an optional `+` or `-` is the token's decimal value, negated after `-`. This includes fractional tokens. |
| PyJson.SignedFractionExamples | wifi_speed.py:169 | `float(" +144.4\n")` is 144.4 and `float("-144.4")` is -144.4. |
| PyJson.ToFloat | wifi_speed.py:169 | `float()` of a JSON value: a number is kept, `True`/`False` give 1.0/0.0, a string converts as `float(str)` does, and `None`, arrays and objects raise. |
| SpeedTest.PingSources | wifi_speed.py:158 | The ping is, in order, the truthy top-level `ping` or the truthy `server.ping`. Failing both, with `server` absent or an object, it is `float()` of `latency`: present exactly when that conversion succeeds, and then its value. It is 0 when none of the three is present. A non-object `server` raises. |
| SpeedTest.LatencyExamples | wifi_speed.py:158 | A zero `ping` with `latency` 23 gives ping 23. A null `ping` with an empty `latency` string raises. |
| SpeedTest.DownloadSources | wifi_speed.py:159 | Download comes from `download`, then `bytes_sent`, then `downloadBytes`. It is `None` exactly when the first two are falsy and the last is absent or null. |
| SpeedTest.UploadSources | wifi_speed.py:160 | Upload comes from `upload`, then `bytes_received`, then `uploadBytes`. It is `None` exactly when the first two are falsy and the last is absent or null. |
| SpeedTest.Normalise | wifi_speed.py:158-169 | For an object document with a ping, the result is exactly the conversion of the top-level download, upload and ping lookups; the nested branch never contributes one. Any other document fails. |
| SpeedTest.NestedBandwidthUnused | wifi_speed.py:162-168 | Whenever the nested branch is entered, the attempt fails. |
| SpeedTest.IntendedExtends | wifi_speed.py:162-168 | The corrected normaliser agrees with the code on every document the code normalises. |
| SpeedTest.NestedShape | wifi_speed.py:162-168 | A document with nested `bandwidth` byte rates and a ping yields eight times the byte rates when corrected, and fails as written. |
| SpeedTest.NonObjectFails | wifi_speed.py:158 | A document that is not an object fails, because `.get` raises. |
| SpeedTest.TopLevelFields | wifi_speed.py:158-169 | Non-zero top-level numeric `download`, `upload` and `ping` come back unchanged. |
| SpeedTest.NoPingFieldsGivesZero | wifi_speed.py:158 | A document with no `ping`, `server` or `latency` gets ping 0 instead of failing. |
| SpeedTest.ObjectDownloadFails | wifi_speed.py:159-169 | A `download` that is a non-empty object skips the nested branch, and `float()` on it fails the attempt. |
| SpeedTest.ZeroRateAccepted | wifi_speed.py:159-162 | A zero `downloadBytes` at the end of the chain is not `None`, so it is reported as a 0 download. |
| SpeedTest.FlatDocumentResult | wifi_speed.py:158-169 | `{"ping": 12.3, "download": 54000000, "upload": 12000000}` gives 54000000, 12000000 and 12.3. |
| SpeedTest.NestedDocumentResult | wifi_speed.py:162-169 | The nested document with byte rates 6750000 and 1500000 and ping 8.0 fails as written. Corrected, it gives 54000000, 12000000 and 8.0. |
| SpeedTestCli.Variants | wifi_speed.py:150 | Three vectors are tried, each the program plus one flag, and the first and last are the same. |
| SpeedTestCli.DocumentText | wifi_speed.py:153-155 | The parsed text neither begins nor ends with whitespace. |
| SpeedTestCli.StdoutFirst | wifi_speed.py:153-155 | When stdout holds more than whitespace, stderr is never read. |
| SpeedTestCli.BlankStdout | wifi_speed.py:153-155 | A whitespace-only stdout is treated like an empty one: the stripped stderr is parsed. |
| SpeedTestCli.FindCli | wifi_speed.py:146 | A found `speedtest-cli` is used. Otherwise the `speedtest` lookup decides. |
| SpeedTestCli.TryVariants | wifi_speed.py:150-171 | The loop over the three variants succeeds exactly when some attempt completes, and then returns the first attempt that completes; every earlier attempt failed. |
| SpeedTestCli.RunCli | wifi_speed.py:146-172 | Without a program it fails with the not-found message. Otherwise it succeeds exactly when some variant's attempt completes, with the first such attempt's result. When all three fail, it fails with the unable message. |
| SpeedTestCli.RunSpeedtest | wifi_speed.py:132-172 | A library result wins. Otherwise the CLI outcome is reported: not found, the first successful variant, or unable exactly when every variant fails. |
| HumanUnits.HumanBps | wifi_speed.py:175-185 | `None` gives N/A. Otherwise the unit index is at most 3, and value times 1000^index equals the input. The value is below 1000 unless the unit is Gbps, and at least 1 unless it is bps. Inputs below 1000, negatives included, stay in bps unchanged. |
| HumanUnits.ScaleUnique | wifi_speed.py:182-184 | At most one value/unit pair meets those conditions, so the loop's choice is the only admissible one. |
| HumanUnits.MegabitExample | wifi_speed.py:175-185 | 54000000 bit/s is displayed as 54 Mbps and in no other way. |

## Left out

- `run_cmd` and `subprocess.run` are the `Runner` and `Exec` parameters.
  This leaves out:
  - process spawning and the shell;
  - the 6 s and 300 s timeouts;
  - how `run_cmd` joins the two streams: the `Runner`'s text is taken as
    given.
- The in-process `speedtest` library path (wifi_speed.py:134-143) is the
  `library` parameter of `RunSpeedtest`. `None` stands for any exception
  there. The library calls out to the network.
- `json.loads` and `shutil.which` are the `Loads` and `which` parameters.
- These are not modelled: the `timestamp` field (`datetime.now()`), the
  progress callback, the Tkinter `WifiSpeedApp` class, logging, file
  writing and threads. They are clock, I/O, UI and concurrency.
- IEEE floating point is replaced by exact reals. `* 8`, `/ 1000.0` and
  `float()` are therefore exact, and the `.2f` formatting of `human_bps`
  is left out: `Display` holds the value and the unit index.
- Python's Unicode meaning of `\s`, `\d` and IGNORECASE is replaced by
  ASCII. Non-ASCII digits and whitespace are outside the model.
- The patterns appear in the source with every backslash doubled
  (`r'\\s*'`), and so does the non-raw `'\\n'` that ends each log line at
  wifi_speed.py:242. The doubling is read as an escaping artefact of the
  text: each pattern is modelled with single regex escapes (`\s`, `\d`,
  `\.`, `\(`), which is what the comments beside the searches describe.
- `(tx|rx)` is written `[tr]x`, which matches the same text. Its unread
  group is dropped, so the digits are the pattern's only group.
- PyJson.FloatOfString: rejects exponents (`1e6`), `inf`, `nan` and
  digit-group underscores. Python's `float()` accepts them, so the model
  fails some attempts that Python completes.
- LinkSpeed.WindowsReceiveWins: states the shape lemma for a field at the
  very start of the output. A receive field anywhere is covered by
  `FirstOfPicks` applied to the first search's group.
- LinkSpeed.IwconfigBitRateWins: the text before the field must contain no
  `b` in either case, which covers iwconfig's interface header. Other
  prefixes are covered by `FirstOfPicks`.
- LinkSpeed.MacosLastTxRateWins: the text before the field must contain no
  `l`, which covers airport's indentation. Other prefixes are covered by
  `FirstOfPicks`.

## Findings

| source | as written | input that shows it | evidently intended | confidence | as-written member | corrected member |
|---|---|---|---|---|---|---|
| wifi_speed.py:162-168 | The nested `bandwidth` branch runs only when `dl` or `ul` is `None`. That happens only when the document has no truthy `download` (or `upload`) member. Indexing that member's `bandwidth` then raises, the side stays `None`, and `float(None)` fails the attempt, so the branch never yields a result. | `{"download": {"bandwidth": 6750000}, "upload": {"bandwidth": 1500000}, "ping": 8.0}`: `dl` is the object, so the branch is skipped and `float()` of the object fails. | When the top-level values are not usable numbers, read the nested byte rates and multiply them by 8. The document above then gives 54000000, 12000000 and 8.0. This is what the comment "try nested structure" at wifi_speed.py:163 announces. | not executed; high | SpeedTest.NestedBandwidthUnused | SpeedTest.NormaliseIntended |

For this finding, the model keeps the code's behaviour in `Normalise`.
`NestedDocumentResult` proves that this nested document fails as written.
It also proves that the document gives those values under the corrected
definition, and `IntendedExtends` shows the correction changes no document
the code already handles.

=== FILE: cli.dfy ===
/** The fallback order of `run_speedtest`: the in-process library, then a
    speed-test program found on the path, run with up to three argument
    variants until one prints a document that normalises. */
module SpeedTestCli {
  import opened Wrappers
  import opened Text
  import opened PyJson
  import opened SpeedTest

  /** A finished process: what it wrote to stdout and to stderr. */
  datatype Completed = Completed(stdout: string, stderr: string)

  /** Runs the argument vector of the given attempt (0, 1 or 2); `None`
      stands for the exception `subprocess.run` raises (timeout, missing
      executable). The attempt index lets a repeated vector behave
      differently the second time. */
  type Exec = (seq<string>, nat) -> Option<Completed>

  /** `json.loads`; `None` stands for the decoding error. */
  type Loads = string -> Option<Value>

  /** The normalisation applied to a parsed document. */
  type Normaliser = Value -> Option<Measurement>

  const NotFoundMessage :=
    "speedtest module/CLI not found. Install with: pip install speedtest-cli or install Ookla Speedtest CLI."
  const UnableMessage := "Unable to run speedtest via module or CLI."

  /** The argument vectors tried, in order; the first and the last are the
      same. */
  function Variants(prog: string): (vs: seq<seq<string>>)
    ensures |vs| == 3 && vs[0] == vs[2]
    ensures forall i | 0 <= i < 3 :: |vs[i]| == 2 && vs[i][0] == prog
  {
    [[prog, "--json"], [prog, "--format=json"], [prog, "--json"]]
  }

  /** The text handed to `json.loads`: stripped stdout, or stripped stderr
      when stdout holds nothing but whitespace. */
  function DocumentText(c: Completed): (t: string)
    ensures t == [] || (!IsSpace(t[0]) && !IsSpace(t[|t| - 1]))
  {
    var out := Strip(c.stdout);
    if out == [] then Strip(c.stderr) else out
  }

  /** One attempt: run, pick the text, parse it, normalise it. */
  function Attempt(args: seq<string>, n: nat, exec: Exec, loads: Loads, normalise: Normaliser)
    : Option<Measurement>
  {
    match exec(args, n)
    case None => None
    case Some(c) =>
      match loads(DocumentText(c))
      case None => None
      case Some(v) => normalise(v)
  }

  /** The outcome of attempt `i` of the loop. */
  function Outcome(prog: string, i: nat, exec: Exec, loads: Loads, normalise: Normaliser)
    : Option<Measurement>
    requires i < 3
  {
    Attempt(Variants(prog)[i], i, exec, loads, normalise)
  }

  /** Stderr is read only when stdout is blank. */
  lemma StdoutFirst(out: string, err1: string, err2: string)
    requires !AllSpace(out)
    ensures DocumentText(Completed(out, err1)) == DocumentText(Completed(out, err2)) == Strip(out)
  {
    StripBlank(out);
  }

  /** Whitespace-only stdout counts as empty: the stripped stderr is
      parsed. */
  lemma BlankStdout(out: string, err: string)
    requires AllSpace(out)
    ensures DocumentText(Completed(out, err)) == DocumentText(Completed("", err)) == Strip(err)
  {
    StripBlank(out);
    StripBlank("");
  }

  /** `shutil.which('speedtest-cli') or shutil.which('speedtest')`; the
      empty string stands for "not found" as `None` does. */
  function FindCli(which: string -> Option<string>): (prog: Option<string>)
    ensures prog.Some? && prog.value != [] ==>
              prog == which("speedtest-cli") || prog == which("speedtest")
    ensures which("speedtest-cli").Some? && which("speedtest-cli").value != [] ==>
              prog == which("speedtest-cli")
    ensures !(which("speedtest-cli").Some? && which("speedtest-cli").value != []) ==>
              prog == which("speedtest")
  {
    var first := which("speedtest-cli");
    if first.Some? && first.value != [] then first else which("speedtest")
  }

  /** The loop over the argument variants, attempt `i` being
      `attempt(i)`: the first attempt that completes decides; `None` when
      all three fail. */
  method TryVariants(attempt: nat -> Option<Measurement>) returns (r: Option<Measurement>)
    ensures r.Some? <==> exists i | 0 <= i < 3 :: attempt(i).Some?
    ensures r.Some? ==>
              exists i | 0 <= i < 3 :: attempt(i) == r && forall j | 0 <= j < i :: attempt(j).None?
  {
    var i := 0;
    while i < 3
      invariant 0 <= i <= 3
      invariant forall j | 0 <= j < i :: attempt(j).None?
    {
      r := attempt(i);
      if r.Some? {
        return;
      }
      i := i + 1;
    }
    return None;
  }

  /** `run_speedtest`'s CLI fallback. Without a program it fails with the
      not-found message before running anything; otherwise the first
      variant whose attempt completes decides, and when all three fail it
      fails with the unable message. */
  method RunCli(prog: Option<string>, exec: Exec, loads: Loads, normalise: Normaliser)
    returns (r: Result<Measurement, string>)
    ensures prog.None? || prog.value == [] ==> r == Failure(NotFoundMessage)
    ensures prog.Some? && prog.value != [] ==>
              (r.Success? <==> exists i | 0 <= i < 3 :: Outcome(prog.value, i, exec, loads, normalise).Some?)
    ensures prog.Some? && r.Success? ==>
              exists i | 0 <= i < 3 ::
                && Outcome(prog.value, i, exec, loads, normalise) == Some(r.value)
                && forall j | 0 <= j < i :: Outcome(prog.value, j, exec, loads, normalise).None?
    ensures r.Failure? ==> r.error == NotFoundMessage || r.error == UnableMessage
    ensures prog.Some? && prog.value != [] && r.Failure? ==> r.error == UnableMessage
  {
    if prog.None? || prog.value == [] {
      return Failure(NotFoundMessage);
    }
    var p := prog.value;
    var attempt := (i: nat) => if i < 3 then Outcome(p, i, exec, loads, normalise) else None;
    assert forall i | 0 <= i < 3 :: attempt(i) == Outcome(p, i, exec, loads, normalise);
    var m := TryVariants(attempt);
    if m.Some? {
      return Success(m.value);
    }
    return Failure(UnableMessage);
  }

  /** `run_speedtest`: the in-process library's result when it produced
      one (any exception there is `None`), otherwise the CLI fallback. */
  method RunSpeedtest(library: Option<Measurement>, which: string -> Option<string>, exec: Exec,
                      loads: Loads, normalise: Normaliser)
    returns (r: Result<Measurement, string>)
    ensures library.Some? ==> r == Success(library.value)
    ensures library.None? && r.Success? ==>
              var prog := FindCli(which);
              && prog.Some? && prog.value != []
              && exists i | 0 <= i < 3 ::
                   && Outcome(prog.value, i, exec, loads, normalise) == Some(r.value)
                   && forall j | 0 <= j < i :: Outcome(prog.value, j, exec, loads, normalise).None?
    ensures library.None? && FindCli(which).Some? && FindCli(which).value != [] ==>
              (r.Success? <==> exists i | 0 <= i < 3 :: Outcome(FindCli(which).value, i, exec, loads, normalise).Some?)
    ensures library.None? && (FindCli(which).None? || FindCli(which).value == [])
            ==> r == Failure(NotFoundMessage)
    ensures library.None? && FindCli(which).Some? && FindCli(which).value != [] ==>
              (r == Failure(UnableMessage) <==>
               forall i | 0 <= i < 3 :: Outcome(FindCli(which).value, i, exec, loads, normalise).None?)
  {
    if library.Some? {
      return Success(library.value);
    }
    r := RunCli(FindCli(which), exec, loads, normalise);
  }
}

=== FILE: decimal.dfy ===
/** Python's `float()` applied to a token captured by `([\d\.]+)`: an exact
    decimal-to-real conversion that rejects a token with two dots or with no
    digit at all. */
module Decimal {
  import opened Wrappers
  import opened Text

  /** A character of the class `[\d\.]`. */
  predicate IsRateChar(c: char) {
    IsDigit(c) || c == '.'
  }

  function DotCount(s: string): nat {
    if s == [] then 0 else (if s[0] == '.' then 1 else 0) + DotCount(s[1..])
  }

  /** The tokens over `[\d\.]` that `float()` accepts: at most one dot and
      at least one digit ("1", "1.", ".5", "1.5"; not "." or "1.2.3"). */
  predicate IsDecimal(s: string) {
    && (forall k | 0 <= k < |s| :: IsRateChar(s[k]))
    && DotCount(s) <= 1
    && exists k | 0 <= k < |s| :: IsDigit(s[k])
  }

  function DigitValue(c: char): nat
    requires IsDigit(c)
  {
    c as int - '0' as int
  }

  /** The natural number written by a string of decimal digits. */
  function DigitsValue(ds: string): nat
    requires AllDigits(ds)
  {
    if ds == [] then 0
    else 10 * DigitsValue(ds[..|ds| - 1]) + DigitValue(ds[|ds| - 1])
  }

  function Pow10(n: nat): (p: nat)
    ensures p > 0
  {
    if n == 0 then 1 else 10 * Pow10(n - 1)
  }

  /** Index of the first '.' of `s`, or `|s|` when there is none. */
  function DotIndex(s: string): (d: nat)
    ensures d <= |s|
    ensures d < |s| ==> s[d] == '.'
    ensures forall k | 0 <= k < d :: s[k] != '.'
  {
    if s == [] then 0
    else if s[0] == '.' then 0
    else 1 + DotIndex(s[1..])
  }

  /** The value of a whole part and a fraction `frac / scale`. */
  function DecimalValue(whole: nat, frac: nat, scale: nat): (v: real)
    requires scale > 0
    ensures v >= 0.0
  {
    whole as real + frac as real / scale as real
  }

  /** `float(token)`: `None` stands for the `ValueError` Python raises. */
  function ParseDecimal(s: string): (r: Option<real>)
    ensures r.Some? <==> IsDecimal(s)
    ensures r.Some? ==> r.value >= 0.0
  {
    var d := DotIndex(s);
    var whole := s[..d];
    var frac := if d < |s| then s[d + 1..] else [];
    AcceptedIsDecimal(s);
    if AllDigits(whole) && AllDigits(frac) && |whole| + |frac| > 0 then
      Some(DecimalValue(DigitsValue(whole), DigitsValue(frac), Pow10(|frac|)))
    else
      None
  }

  lemma DotCountAppend(a: string, b: string)
    ensures DotCount(a + b) == DotCount(a) + DotCount(b)
  {
    if a != [] {
      assert (a + b)[1..] == a[1..] + b;
      DotCountAppend(a[1..], b);
    } else {
      assert a + b == b;
    }
  }

  lemma DotFree(s: string)
    ensures DotCount(s) == 0 <==> forall k | 0 <= k < |s| :: s[k] != '.'
  {
    if s != [] {
      DotFree(s[1..]);
      assert forall k | 1 <= k < |s| :: s[k] == s[1..][k - 1];
    }
  }

  /** The dots of a token are those of its two sides and the first dot. */
  lemma DotSplit(s: string, d: nat)
    requires d == DotIndex(s) && d < |s|
    ensures DotCount(s) == DotCount(s[..d]) + 1 + DotCount(s[d + 1..])
  {
    var r := s[d..];
    assert s == s[..d] + r;
    DotCountAppend(s[..d], r);
    assert r[0] == '.' && r[1..] == s[d + 1..];
  }

  /** Two digit strings around the first dot form a decimal token. */
  lemma PartsAreDecimal(s: string, d: nat)
    requires d == DotIndex(s)
    requires AllDigits(s[..d])
    requires d < |s| ==> AllDigits(s[d + 1..])
    requires d < |s| || |s[..d]| > 0
    requires |s[..d]| > 0 || (d < |s| && |s[d + 1..]| > 0)
    ensures IsDecimal(s)
  {
    var whole := s[..d];
    DotFree(whole);
    if d < |s| {
      var frac := s[d + 1..];
      DotFree(frac);
      DotSplit(s, d);
      assert forall k | d < k < |s| :: s[k] == frac[k - d - 1];
      if |whole| > 0 {
        assert IsDigit(s[0]);
      } else {
        assert IsDigit(s[d + 1]);
      }
    } else {
      assert s == whole;
      assert IsDigit(s[0]);
    }
  }

  /** A decimal token is two digit strings around its first dot. */
  lemma DecimalParts(s: string, d: nat)
    requires d == DotIndex(s) && IsDecimal(s)
    ensures AllDigits(s[..d])
    ensures d < |s| ==> AllDigits(s[d + 1..])
    ensures |s[..d]| > 0 || (d < |s| && |s[d + 1..]| > 0)
  {
    var k :| 0 <= k < |s| && IsDigit(s[k]);
    assert k != d;
    if d < |s| {
      var frac := s[d + 1..];
      DotSplit(s, d);
      DotFree(frac);
      assert forall j | 0 <= j < |frac| :: frac[j] == s[d + 1 + j];
      if k > d {
        assert frac[k - d - 1] == s[k];
      }
    }
  }

  /** The split at the first dot accepts exactly the decimal tokens. */
  lemma AcceptedIsDecimal(s: string)
    ensures var d := DotIndex(s);
            var whole := s[..d];
            var frac := if d < |s| then s[d + 1..] else [];
            (AllDigits(whole) && AllDigits(frac) && |whole| + |frac| > 0) <==> IsDecimal(s)
  {
    var d := DotIndex(s);
    var whole := s[..d];
    var frac := if d < |s| then s[d + 1..] else [];
    if AllDigits(whole) && AllDigits(frac) && |whole| + |frac| > 0 {
      PartsAreDecimal(s, d);
    }
    if IsDecimal(s) {
      DecimalParts(s, d);
    }
  }

  /** Decimal rendering of a natural number, as `str(n)` prints it. */
  function ShowNat(n: nat): (s: string)
    ensures |s| > 0 && AllDigits(s)
  {
    var c := ('0' as int + n % 10) as char;
    if n < 10 then [c] else ShowNat(n / 10) + [c]
  }

  lemma {:induction false} ShowNatValue(n: nat)
    ensures DigitsValue(ShowNat(n)) == n
  {
    var s := ShowNat(n);
    if n >= 10 {
      assert s[..|s| - 1] == ShowNat(n / 10);
      ShowNatValue(n / 10);
    }
  }

  /** `float(str(n)) == n` for every natural number. */
  lemma ParseShowNat(n: nat)
    ensures ParseDecimal(ShowNat(n)) == Some(n as real)
  {
    var s := ShowNat(n);
    assert DotIndex(s) == |s|;
    assert s[..|s|] == s;
    ShowNatValue(n);
  }

  lemma DotIndexAppend(s: string, t: string)
    requires DotIndex(s) < |s|
    ensures DotIndex(s + t) == DotIndex(s)
  {
    if s[0] != '.' {
      assert (s + t)[1..] == s[1..] + t;
      DotIndexAppend(s[1..], t);
    }
  }

  lemma DigitsAppendZero(f: string)
    requires AllDigits(f)
    ensures AllDigits(f + "0")
    ensures DigitsValue(f + "0") == 10 * DigitsValue(f)
  {
    assert (f + "0")[..|f|] == f;
  }

  /** A fraction scaled by ten in both terms keeps its value. */
  lemma ScaleFraction(w: nat, a: nat, p: nat)
    requires p > 0
    ensures DecimalValue(w, 10 * a, 10 * p) == DecimalValue(w, a, p)
  {
    var x := a as real;
    var y := p as real;
    assert (10 * a) as real == 10.0 * x && (10 * p) as real == 10.0 * y;
    assert (10.0 * x) / (10.0 * y) == x / y;
  }

  /** The value of a token split at its first dot. */
  lemma ParseParts(s: string, d: nat, whole: string, frac: string)
    requires d == DotIndex(s) && d < |s| && whole == s[..d] && frac == s[d + 1..]
    requires AllDigits(whole) && AllDigits(frac) && |frac| > 0
    ensures ParseDecimal(s) == Some(DecimalValue(DigitsValue(whole), DigitsValue(frac), Pow10(|frac|)))
  {
  }

  /** The value of a token with a zero appended after its fraction. */
  lemma AppendZeroValue(s: string, d: nat, whole: string, frac: string)
    requires d == DotIndex(s) && d < |s| && whole == s[..d] && frac == s[d + 1..]
    requires AllDigits(whole) && AllDigits(frac)
    ensures ParseDecimal(s + "0") == Some(DecimalValue(DigitsValue(whole), DigitsValue(frac), Pow10(|frac|)))
  {
    var t := s + "0";
    var f0 := frac + "0";
    assert DotIndex(t) == d && t[..d] == whole && t[d + 1..] == f0 by {
      DotIndexAppend(s, "0");
    }
    DigitsAppendZero(frac);
    ParseParts(t, d, whole, f0);
    assert Pow10(|f0|) == 10 * Pow10(|frac|);
    ScaleFraction(DigitsValue(whole), DigitsValue(frac), Pow10(|frac|));
  }

  /** A trailing zero after the decimal point does not change the value:
      `float("2.5") == float("2.50")`. */
  lemma TrailingZero(s: string)
    requires IsDecimal(s) && DotCount(s) == 1
    ensures ParseDecimal(s + "0") == ParseDecimal(s)
  {
    var d := DotIndex(s);
    if d == |s| {
      DotFree(s);
      assert false;
    }
    AcceptedIsDecimal(s);
    var whole := s[..d];
    var frac := s[d + 1..];
    AppendZeroValue(s, d, whole, frac);
    if |frac| > 0 {
      ParseParts(s, d, whole, frac);
    } else {
      assert ParseDecimal(s) == Some(DecimalValue(DigitsValue(whole), 0, 1));
    }
  }

  /** The first dot of a token whose whole part is all digits. */
  lemma {:induction false} DotAfterDigits(whole: string, rest: string)
    requires AllDigits(whole) && |rest| > 0 && rest[0] == '.'
    ensures DotIndex(whole + rest) == |whole|
  {
    if whole != [] {
      assert (whole + rest)[1..] == whole[1..] + rest;
      DotAfterDigits(whole[1..], rest);
    } else {
      assert whole + rest == rest;
    }
  }

  /** Digits written after other digits shift them by a power of ten. */
  lemma {:induction false} DigitsConcat(a: string, b: string)
    requires AllDigits(a) && AllDigits(b)
    ensures AllDigits(a + b)
    ensures DigitsValue(a + b) == DigitsValue(a) * Pow10(|b|) + DigitsValue(b)
  {
    if b == [] {
      assert a + b == a;
    } else {
      var b' := b[..|b| - 1];
      DigitsConcat(a, b');
      assert (a + b)[..|a + b| - 1] == a + b';
      assert (a + b)[|a + b| - 1] == b[|b| - 1];
      var c := DigitValue(b[|b| - 1]);
      assert DigitsValue(a + b) == 10 * DigitsValue(a + b') + c;
      assert Pow10(|b|) == 10 * Pow10(|b'|);
      ShiftDigit(DigitsValue(a), Pow10(|b'|), DigitsValue(b'), c);
    }
  }

  lemma ShiftDigit(x: int, p: int, y: int, c: int)
    ensures 10 * (x * p + y) + c == x * (10 * p) + (10 * y + c)
  {
  }

  /** A whole part and a fraction over `p` make the number their digits
      spell, over `p`. */
  lemma ScaleBack(x: real, w: nat, f: nat, p: nat, n: nat)
    requires p > 0 && n == w * p + f && x == DecimalValue(w, f, p)
    ensures x == n as real / p as real
  {
    var y := p as real;
    assert (f as real / y) * y == f as real;
    assert x * y == n as real;
  }

  /** A token with a dot splits into its whole digits and its fraction
      digits. */
  lemma ParseWithDot(whole: string, frac: string)
    requires AllDigits(whole) && AllDigits(frac) && |whole| + |frac| > 0
    ensures ParseDecimal(whole + "." + frac)
            == Some(DecimalValue(DigitsValue(whole), DigitsValue(frac), Pow10(|frac|)))
  {
    var s := whole + "." + frac;
    assert s == whole + ("." + frac);
    DotAfterDigits(whole, "." + frac);
    var d := |whole|;
    assert s[..d] == whole && s[d + 1..] == frac;
  }

  /** The value `float()` gives a token with a fraction: the number its
      digits spell without the dot, over ten to the number of fraction
      digits, so `float("144.4") == 1444 / 10`. */
  lemma FractionValue(whole: string, frac: string)
    requires AllDigits(whole) && AllDigits(frac) && |whole| + |frac| > 0
    ensures ParseDecimal(whole + "." + frac)
            == Some(DigitsValue(whole + frac) as real / Pow10(|frac|) as real)
  {
    ParseWithDot(whole, frac);
    DigitsConcat(whole, frac);
    var x := DecimalValue(DigitsValue(whole), DigitsValue(frac), Pow10(|frac|));
    ScaleBack(x, DigitsValue(whole), DigitsValue(frac), Pow10(|frac|), DigitsValue(whole + frac));
  }

  /** The rate `iw` prints as `144.4` reads as 144.4. */
  lemma ParseFractionExample()
    ensures ParseDecimal("144.4") == Some(144.4)
  {
    assert AllDigits("144") && AllDigits("4");
    FractionValue("144", "4");
    assert "144" + "." + "4" == "144.4";
    DigitsExample();
  }

  lemma DigitsExample()
    ensures DigitsValue("144" + "4") == 1444
  {
    assert "144" + "4" == "1444";
    assert "1444"[..3] == "144" && "144"[..2] == "14" && "14"[..1] == "1" && "1"[..0] == "";
  }
}

=== FILE: linkspeed.dfy ===
/** The link-speed prober: the three platform parsers, the Linux cascade
    over three tools and the platform dispatch that turns every exception
    into an unknown reading. The command runner is a parameter: a function
    from the shell command to its stdout followed by its stderr. A non-zero
    exit status raises nothing. The iwconfig, iw and airport commands send
    their stderr to `/dev/null`, so only netsh's and nmcli's error text can
    reach a parser. The output is `""` when running the command raises, as
    on a timeout, and also when the command prints nothing: a missing
    iwconfig, or `grep '^yes'` finding no active network. */
module LinkSpeed {
  import opened Wrappers
  import opened Text
  import opened Regex
  import Decimal

  /** The only exception the parsers raise: `float()` rejecting a token. */
  datatype Raised = ValueError(token: string)

  /** What a parser returns or raises: a rate in Mbit/s, `None`, or the
      exception. */
  type Reading = Result<Option<real>, Raised>

  type Runner = string -> string

  const NetshCmd := "netsh wlan show interfaces"
  const IwconfigCmd := "iwconfig 2>/dev/null"
  const IwCmd := "iw dev wlan0 link 2>/dev/null"
  const NmcliCmd := "nmcli -t -f ACTIVE,SSID,BITRATE dev wifi | grep '^yes' 2>/dev/null"
  const AirportCmd :=
    "/System/Library/PrivateFrameworks/Apple80211.framework/Versions/Current/Resources/airport -I 2>/dev/null"

  const ReceiveLabel := "Receive rate (Mbps)"
  const TransmitLabel := "Transmit rate (Mbps)"

  /** `<name>\s*:\s*([\d\.]+)`: a "name : value" field of netsh. */
  function FieldPattern(name: string): Pattern {
    Then(Lit(name), Then(Star(Space), Then(Lit(":"), Then(Star(Space),
      Then(Group(DigitOrDot), End)))))
  }

  /** `Receive rate \(Mbps\)\s*:\s*([\d\.]+)`, IGNORECASE */
  const ReceiveRate := Regex(FieldPattern(ReceiveLabel), true)

  /** `Transmit rate \(Mbps\)\s*:\s*([\d\.]+)`, IGNORECASE */
  const TransmitRate := Regex(FieldPattern(TransmitLabel), true)

  /** `([\d\.]+)\s*Mbps`, IGNORECASE */
  const BareMbps :=
    Regex(Then(Group(DigitOrDot), Then(Star(Space), Then(Lit("Mbps"), End))), true)

  /** `Bit Rate[:=]\s*([\d\.]+)\s*Mb`, IGNORECASE */
  const BitRate :=
    Regex(Then(Lit("Bit Rate"), Then(One(AnyOf(":=")), Then(Star(Space),
      Then(Group(DigitOrDot), Then(Star(Space), Then(Lit("Mb"), End)))))), true)

  /** `(tx|rx) bitrate[:=]?\s*([\d\.]+)\s*M`, IGNORECASE. The alternation
      `(tx|rx)` is written `[tr]x`, which matches the same text; its group
      is never read, so the digits are this pattern's only group (Python's
      group 2). */
  const TxRxBitrate :=
    Regex(Then(One(AnyOf("tr")), Then(Lit("x bitrate"), Then(Opt(AnyOf(":=")), Then(Star(Space),
      Then(Group(DigitOrDot), Then(Star(Space), Then(Lit("M"), End))))))), true)

  /** `([\d\.]+)M`, case-sensitive */
  const NmcliRate :=
    Regex(Then(Group(DigitOrDot), Then(Lit("M"), End)), false)

  /** `lastTxRate:\s*([\d\.]+)`, case-sensitive */
  const LastTxRate :=
    Regex(Then(Lit("lastTxRate:"), Then(Star(Space), Then(Group(DigitOrDot), End))), false)

  /** `([\d\.]+)\s*Mb/s`, case-sensitive */
  const MbPerSec :=
    Regex(Then(Group(DigitOrDot), Then(Star(Space), Then(Lit("Mb/s"), End))), false)

  predicate RegexOk(r: Regex) {
    WellFormed(r.pattern, r.ignoreCase) && Groups(r.pattern) == 1
  }

  /** No digit or dot can open `\s*` followed by a literal whose first
      character is `lead`. */
  lemma RunThenLiteral(lead: char, w: string, ci: bool)
    requires |w| > 0 && w[0] == lead && !Decimal.IsRateChar(Fold(lead)) && !Decimal.IsRateChar(lead)
    ensures CannotFollow(DigitOrDot, Then(Star(Space), Then(Lit(w), End)), ci)
    ensures CannotFollow(DigitOrDot, Then(Lit(w), End), ci)
  {
    forall c: char | MayLead(Then(Star(Space), Then(Lit(w), End)), c, ci)
      ensures !InClass(c, DigitOrDot, ci)
    {
      if !IsSpace(c) {
        assert MayLead(Then(Lit(w), End), c, ci);
        assert CharEq(c, lead, ci);
      }
    }
    forall c: char | MayLead(Then(Lit(w), End), c, ci)
      ensures !InClass(c, DigitOrDot, ci)
    {
      assert CharEq(c, lead, ci);
    }
  }

  lemma PatternsWellFormed()
    ensures RegexOk(ReceiveRate) && RegexOk(TransmitRate) && RegexOk(BareMbps)
    ensures RegexOk(BitRate) && RegexOk(TxRxBitrate) && RegexOk(NmcliRate)
    ensures RegexOk(LastTxRate) && RegexOk(MbPerSec)
  {
    RunThenLiteral('M', "Mbps", true);
    RunThenLiteral('M', "Mb", true);
    RunThenLiteral('M', "M", true);
    RunThenLiteral('M', "M", false);
    RunThenLiteral('M', "Mb/s", false);
    var digits := Then(Group(DigitOrDot), Then(Star(Space), Then(Lit("M"), End)));
    forall c: char | MayLead(Then(Star(Space), digits), c, true)
      ensures !InClass(c, AnyOf(":="), true)
    {
      if !IsSpace(c) {
        assert MayLead(digits, c, true);
        assert Decimal.IsRateChar(c);
      }
    }
    assert CannotFollow(AnyOf(":="), Then(Star(Space), digits), true);
  }

  /** `float(m.group(1))` */
  function FloatToken(tok: string): (r: Reading)
    ensures r.Success? <==> Decimal.IsDecimal(tok)
    ensures r.Success? ==> r.value.Some? && r.value.value >= 0.0
  {
    match Decimal.ParseDecimal(tok)
    case Some(v) => Success(Some(v))
    case None => Failure(ValueError(tok))
  }

  /** The first pattern of the list that occurs decides: its group is
      converted with `float()`; when none occurs the reading is `None`. */
  function FirstOf(rs: seq<Regex>, out: string): (r: Reading)
    requires forall k | 0 <= k < |rs| :: RegexOk(rs[k])
    ensures r == Success(None) <==> forall k | 0 <= k < |rs| :: !Occurs(rs[k], out)
    ensures r.Success? && r.value.Some? ==> r.value.value >= 0.0
  {
    if rs == [] then Success(None)
    else
      assert RegexOk(rs[0]);
      match SearchGroup(rs[0], out)
      case Some(tok) => FloatToken(tok)
      case None => FirstOf(rs[1..], out)
  }

  /** The searches of `parse_windows_netsh`, in order. */
  const WindowsPatterns := [ReceiveRate, TransmitRate, BareMbps]

  lemma WindowsPatternsOk()
    ensures forall k | 0 <= k < |WindowsPatterns| :: RegexOk(WindowsPatterns[k])
  {
    PatternsWellFormed();
  }

  /** `parse_windows_netsh` */
  function ParseWindowsNetsh(out: string): (r: Reading)
    ensures r == Success(None) <==>
      !Occurs(ReceiveRate, out) && !Occurs(TransmitRate, out) && !Occurs(BareMbps, out)
    ensures r.Success? && r.value.Some? ==> r.value.value >= 0.0
  {
    WindowsPatternsOk();
    assert WindowsPatterns[0] == ReceiveRate && WindowsPatterns[1] == TransmitRate;
    assert WindowsPatterns[2] == BareMbps && |WindowsPatterns| == 3;
    FirstOf(WindowsPatterns, out)
  }

  /** The searches of `parse_linux_iwconfig`, in order. */
  const IwconfigPatterns := [BitRate, TxRxBitrate]

  lemma IwconfigPatternsOk()
    ensures |IwconfigPatterns| == 2
    ensures forall k | 0 <= k < |IwconfigPatterns| :: RegexOk(IwconfigPatterns[k])
  {
    PatternsWellFormed();
  }

  /** The searches of `parse_macos`, in order. */
  const MacosPatterns := [LastTxRate, MbPerSec]

  lemma MacosPatternsOk()
    ensures |MacosPatterns| == 2
    ensures forall k | 0 <= k < |MacosPatterns| :: RegexOk(MacosPatterns[k])
  {
    PatternsWellFormed();
  }

  /** `parse_linux_iwconfig` */
  function ParseLinuxIwconfig(out: string): (r: Reading)
    ensures r == Success(None) <==> !Occurs(BitRate, out) && !Occurs(TxRxBitrate, out)
    ensures r.Success? && r.value.Some? ==> r.value.value >= 0.0
  {
    IwconfigPatternsOk();
    assert IwconfigPatterns[0] == BitRate && IwconfigPatterns[1] == TxRxBitrate;
    FirstOf(IwconfigPatterns, out)
  }

  /** The nmcli step of `get_linux_link_speed`: the first `<digits>M`
      token, converted with `float()`. */
  function NmcliReading(out: string): (r: Reading)
    ensures r == Success(None) <==> !Occurs(NmcliRate, out)
    ensures r.Success? && r.value.Some? ==> r.value.value >= 0.0
  {
    PatternsWellFormed();
    var rs := [NmcliRate];
    assert rs[0] == NmcliRate && |rs| == 1;
    FirstOf(rs, out)
  }

  /** `parse_macos_airport` */
  function ParseMacosAirport(out: string): (r: Reading)
    ensures r == Success(None) <==> !Occurs(LastTxRate, out) && !Occurs(MbPerSec, out)
    ensures r.Success? && r.value.Some? ==> r.value.value >= 0.0
  {
    MacosPatternsOk();
    assert MacosPatterns[0] == LastTxRate && MacosPatterns[1] == MbPerSec;
    FirstOf(MacosPatterns, out)
  }

  /** Python truthiness of an optional float: `None` and `0.0` are false. */
  predicate Truthy(x: Option<real>) {
    x.Some? && x.value != 0.0
  }

  /** `get_windows_link_speed` */
  function WindowsLinkSpeed(run: Runner): Reading {
    ParseWindowsNetsh(run(NetshCmd))
  }

  /** `get_linux_link_speed`: iwconfig, then iw, then nmcli; the first two
      count only when their reading is truthy, an exception ends the
      cascade. */
  function LinuxLinkSpeed(run: Runner): (r: Reading)
    ensures r.Success? && r.value.Some? ==> r.value.value >= 0.0
    ensures r == Success(Some(0.0)) ==> NmcliReading(run(NmcliCmd)) == Success(Some(0.0))
  {
    var first := ParseLinuxIwconfig(run(IwconfigCmd));
    if first.Failure? || Truthy(first.value) then first
    else
      var second := ParseLinuxIwconfig(run(IwCmd));
      if second.Failure? || Truthy(second.value) then second
      else NmcliReading(run(NmcliCmd))
  }

  /** `get_macos_link_speed` */
  function MacosLinkSpeed(run: Runner): Reading {
    ParseMacosAirport(run(AirportCmd))
  }

  /** The `except Exception: return None` of `get_link_speed`. */
  function Recover(r: Reading): (o: Option<real>)
    ensures o.Some? <==> r.Success? && r.value.Some?
    ensures o.Some? ==> r.value == o
  {
    if r.Success? then r.value else None
  }

  /** A reading that completed with a rate. */
  predicate Reports(rd: Reading) {
    rd.Success? && rd.value.Some?
  }

  /** `get_link_speed`, dispatching on the prefix of `sys.platform`. */
  function GetLinkSpeed(platform: string, run: Runner): (r: Option<real>)
    ensures r.Some? ==> StartsWith(platform, "win") || StartsWith(platform, "linux")
                        || StartsWith(platform, "darwin")
    ensures r.Some? ==> r.value >= 0.0
    ensures StartsWith(platform, "win") ==>
              (r.Some? <==> Reports(ParseWindowsNetsh(run(NetshCmd))))
              && (r.Some? ==> ParseWindowsNetsh(run(NetshCmd)) == Success(r))
    ensures !StartsWith(platform, "win") && StartsWith(platform, "linux") ==>
              (r.Some? <==> Reports(LinuxLinkSpeed(run)))
              && (r.Some? ==> LinuxLinkSpeed(run) == Success(r))
    ensures !StartsWith(platform, "win") && !StartsWith(platform, "linux")
            && StartsWith(platform, "darwin") ==>
              (r.Some? <==> Reports(ParseMacosAirport(run(AirportCmd))))
              && (r.Some? ==> ParseMacosAirport(run(AirportCmd)) == Success(r))
  {
    if StartsWith(platform, "win") then Recover(WindowsLinkSpeed(run))
    else if StartsWith(platform, "linux") then Recover(LinuxLinkSpeed(run))
    else if StartsWith(platform, "darwin") then Recover(MacosLinkSpeed(run))
    else None
  }

  /** `run` with the output of one command replaced. */
  function Override(run: Runner, cmd: string, out: string): Runner {
    (c: string) => if c == cmd then out else run(c)
  }

  /** None of the patterns matches an empty output, which is what
      `run_cmd` returns when running the command raises or when the
      command prints nothing. */
  lemma EmptyOutputIsUnknown()
    ensures ParseWindowsNetsh("") == Success(None)
    ensures ParseLinuxIwconfig("") == Success(None)
    ensures NmcliReading("") == Success(None)
    ensures ParseMacosAirport("") == Success(None)
  {
    var rs := [ReceiveRate, TransmitRate, BareMbps, BitRate, TxRxBitrate, NmcliRate, LastTxRate, MbPerSec];
    forall k | 0 <= k < |rs|
      ensures !Occurs(rs[k], "")
    {
      assert Match(rs[k].pattern, "", 0, rs[k].ignoreCase).None?;
    }
    assert rs[0] == ReceiveRate && rs[1] == TransmitRate && rs[2] == BareMbps && rs[3] == BitRate;
    assert rs[4] == TxRxBitrate && rs[5] == NmcliRate && rs[6] == LastTxRate && rs[7] == MbPerSec;
  }

  /** A token of `[\d\.]` characters that the next character ends. */
  predicate RateToken(tok: string, rest: string) {
    && |tok| > 0
    && (forall k | 0 <= k < |tok| :: Decimal.IsRateChar(tok[k]))
    && (rest == [] || !Decimal.IsRateChar(rest[0]))
  }

  /** `name` spells `text` up to ASCII case. */
  predicate SpellsCaseless(name: string, text: string) {
    |name| == |text| && forall k | 0 <= k < |name| :: CharEq(name[k], text[k], true)
  }

  lemma FirstOfHead(rs: seq<Regex>, out: string, tok: string)
    requires |rs| > 0 && forall k | 0 <= k < |rs| :: RegexOk(rs[k])
    requires RegexOk(rs[0])
    requires SearchGroup(rs[0], out) == Some(tok)
    ensures FirstOf(rs, out) == FloatToken(tok)
  {
  }

  /** The reading comes from the first pattern of the list that occurs:
      the patterns before it are not consulted beyond their absence, and
      the ones after it not at all. */
  lemma {:induction false} FirstOfPicks(rs: seq<Regex>, out: string, i: nat, tok: string)
    requires forall k | 0 <= k < |rs| :: RegexOk(rs[k])
    requires i < |rs| && RegexOk(rs[i])
    requires forall k | 0 <= k < i :: !Occurs(rs[k], out)
    requires SearchGroup(rs[i], out) == Some(tok)
    ensures FirstOf(rs, out) == FloatToken(tok)
    decreases i
  {
    if i == 0 {
      FirstOfHead(rs, out, tok);
    } else {
      assert RegexOk(rs[0]) && !Occurs(rs[0], out);
      assert SearchGroup(rs[0], out).None?;
      var tail := rs[1..];
      assert tail[i - 1] == rs[i];
      assert forall k | 0 <= k < i - 1 :: tail[k] == rs[k + 1];
      FirstOfPicks(tail, out, i - 1, tok);
    }
  }

  lemma FieldChar(name: string, ws1: string, ws2: string, tok: string, rest: string, k: nat)
    requires k < |name| + |ws1| + 1 + |ws2| + |tok| + |rest|
    ensures var s := name + ws1 + ":" + ws2 + tok + rest;
            var b := |name| + |ws1|;
            var d := b + 1 + |ws2|;
            var e := d + |tok|;
            && (|name| <= k < b ==> s[k] == ws1[k - |name|])
            && (k == b ==> s[k] == ':')
            && (b < k < d ==> s[k] == ws2[k - b - 1])
            && (d <= k < e ==> s[k] == tok[k - d])
            && (e <= k ==> s[k] == rest[k - e])
  {
  }

  /** Where the separator of a netsh field written at the start of the
      output lies. */
  lemma FieldColon(name: string, ws1: string, ws2: string, tok: string, rest: string)
    requires AllSpace(ws1)
    ensures var s := name + ws1 + ":" + ws2 + tok + rest;
            var b := |name| + |ws1|;
            RunEnd(s, |name|, Space, true) == b && LitAt(s, b, ":", true)
  {
    var s := name + ws1 + ":" + ws2 + tok + rest;
    var b := |name| + |ws1|;
    forall k | |name| <= k < b
      ensures IsSpace(s[k])
    {
      FieldChar(name, ws1, ws2, tok, rest, k);
    }
    FieldChar(name, ws1, ws2, tok, rest, b);
    RunEndIs(s, |name|, b, Space, true);
  }

  /** Where the value of a netsh field written at the start of the output
      begins. */
  lemma FieldValueStart(name: string, ws1: string, ws2: string, tok: string, rest: string)
    requires AllSpace(ws2) && RateToken(tok, rest)
    ensures var s := name + ws1 + ":" + ws2 + tok + rest;
            var b := |name| + |ws1|;
            RunEnd(s, b + 1, Space, true) == b + 1 + |ws2|
  {
    var s := name + ws1 + ":" + ws2 + tok + rest;
    var b := |name| + |ws1|;
    var d := b + 1 + |ws2|;
    forall k | b + 1 <= k < d
      ensures IsSpace(s[k])
    {
      FieldChar(name, ws1, ws2, tok, rest, k);
    }
    FieldChar(name, ws1, ws2, tok, rest, d);
    RunEndIs(s, b + 1, d, Space, true);
  }

  /** Where the value token of a netsh field written at the start of the
      output lies. */
  lemma FieldToken(name: string, ws1: string, ws2: string, tok: string, rest: string)
    requires RateToken(tok, rest)
    ensures var s := name + ws1 + ":" + ws2 + tok + rest;
            var d := |name| + |ws1| + 1 + |ws2|;
            && RunEnd(s, d, DigitOrDot, true) == d + |tok|
            && s[d..d + |tok|] == tok
  {
    var s := name + ws1 + ":" + ws2 + tok + rest;
    var d := |name| + |ws1| + 1 + |ws2|;
    var e := d + |tok|;
    forall k | d <= k < e
      ensures s[k] == tok[k - d]
    {
      FieldChar(name, ws1, ws2, tok, rest, k);
    }
    if e < |s| {
      FieldChar(name, ws1, ws2, tok, rest, e);
    }
    RunEndIs(s, d, e, DigitOrDot, true);
    assert s[d..e] == tok;
  }

  lemma FieldPatternOk(w: string)
    requires |w| > 0
    ensures WellFormed(FieldPattern(w), true) && Groups(FieldPattern(w)) == 1
  {
    var digits := Then(Group(DigitOrDot), End);
    forall c: char | MayLead(digits, c, true)
      ensures !InClass(c, Space, true)
    {
    }
    var colon := Then(Lit(":"), Then(Star(Space), digits));
    forall c: char | MayLead(colon, c, true)
      ensures !InClass(c, Space, true)
    {
      assert CharEq(c, ':', true);
    }
  }

  /** A field pattern that matches at position 0 is what `re.search`
      reports; its group is the value token. */
  lemma FieldAtStart(w: string, s: string, b: nat, d: nat, e: nat)
    requires |w| > 0 && LitAt(s, 0, w, true)
    requires |w| <= b && RunEnd(s, |w|, Space, true) == b
    requires LitAt(s, b, ":", true)
    requires RunEnd(s, b + 1, Space, true) == d
    requires d < e && RunEnd(s, d, DigitOrDot, true) == e
    ensures Search(Regex(FieldPattern(w), true), s) == Some(Found(0, [Span(d, e)]))
  {
    var p0 := FieldPattern(w);
    var p1 := p0.tail;
    var p2 := p1.tail;
    var p3 := p2.tail;
    var p4 := p3.tail;
    assert [Span(d, e)] + [] == [Span(d, e)];
    assert Scan(p4, s, d, true) == Some([Span(d, e)]);
    assert Scan(p3, s, b + 1, true) == Scan(p4, s, d, true);
    assert Scan(p2, s, b, true) == Scan(p3, s, b + 1, true);
    assert Scan(p1, s, |w|, true) == Scan(p2, s, b, true);
    assert Scan(p0, s, 0, true) == Scan(p1, s, |w|, true);
    FieldPatternOk(w);
    MatchIsScan(p0, s, 0, true);
    SearchAtStart(Regex(p0, true), s, [Span(d, e)]);
  }

  /** A receive-rate field at the start of the output decides the Windows
      reading, whatever follows it: a transmit-rate field or further
      "<n> Mbps" tokens in `rest` are never consulted, and a token that
      `float()` rejects raises instead of falling back. The label matches
      in any letter case. */
  lemma WindowsReceiveWins(name: string, ws1: string, ws2: string, tok: string, rest: string)
    requires SpellsCaseless(name, ReceiveLabel)
    requires AllSpace(ws1) && AllSpace(ws2) && RateToken(tok, rest)
    ensures ParseWindowsNetsh(name + ws1 + ":" + ws2 + tok + rest) == FloatToken(tok)
  {
    var s := name + ws1 + ":" + ws2 + tok + rest;
    var b := |name| + |ws1|;
    var d := b + 1 + |ws2|;
    var e := d + |tok|;
    assert RunEnd(s, |name|, Space, true) == b && LitAt(s, b, ":", true) by {
      FieldColon(name, ws1, ws2, tok, rest);
    }
    assert RunEnd(s, b + 1, Space, true) == d by {
      FieldValueStart(name, ws1, ws2, tok, rest);
    }
    assert RunEnd(s, d, DigitOrDot, true) == e && s[d..e] == tok by {
      FieldToken(name, ws1, ws2, tok, rest);
    }
    assert LitAt(s, 0, ReceiveLabel, true) by {
      forall k | 0 <= k < |name|
        ensures CharEq(s[k], ReceiveLabel[k], true)
      {
        assert s[k] == name[k];
      }
    }
    FieldAtStart(ReceiveLabel, s, b, d, e);
    WindowsHead(s, d, e, tok);
  }

  lemma WindowsHead(s: string, d: nat, e: nat, tok: string)
    requires Search(ReceiveRate, s) == Some(Found(0, [Span(d, e)]))
    requires d <= e <= |s| && s[d..e] == tok
    ensures ParseWindowsNetsh(s) == FloatToken(tok)
  {
    WindowsPatternsOk();
    assert SearchGroup(WindowsPatterns[0], s) == Some(tok);
    FirstOfHead(WindowsPatterns, s, tok);
  }

  /** `Receive rate (Mbps): 1.2.3  Transmit rate (Mbps): 54`. Each sample
      output here is spelled as the concatenation of the parts its field
      lemma takes (label, separator, spaces, token, rest), empty parts
      included, so that the lemma applies to it as written without a
      proof that the pieces add up to the literal. */
  const MalformedNetsh := ReceiveLabel + "" + ":" + " " + "1.2.3" + "  Transmit rate (Mbps): 54"

  lemma TwoDots()
    ensures !Decimal.IsDecimal("1.2.3")
  {
    assert "1.2.3"[1..] == ".2.3";
    assert ".2.3"[1..] == "2.3";
    assert "2.3"[1..] == ".3";
  }

  /** `float()` raises on a receive-rate token with two dots, and the raise
      is not caught by the parser: the transmit-rate field that follows is
      never read. `get_link_speed` turns the exception into `None`. */
  lemma MalformedReceiveIsUnknown(run: Runner)
    requires run(NetshCmd) == MalformedNetsh
    ensures ParseWindowsNetsh(run(NetshCmd)) == Failure(ValueError("1.2.3"))
    ensures GetLinkSpeed("win32", run) == None
  {
    WindowsReceiveWins(ReceiveLabel, "", " ", "1.2.3", "  Transmit rate (Mbps): 54");
    TwoDots();
    PlatformNames();
  }

  /** `receive rate (mbps) : 300 transmit rate (mbps) : 54`, in the parts
      `WindowsReceiveWins` takes. */
  const LowerNetsh := "receive rate (mbps)" + " " + ":" + " " + "300" + " transmit rate (mbps) : 54"

  lemma LowerLabel()
    ensures SpellsCaseless("receive rate (mbps)", ReceiveLabel)
  {
    var w := "receive rate (mbps)";
    forall k | 0 <= k < |w|
      ensures CharEq(w[k], ReceiveLabel[k], true)
    {
      assert Fold(w[k]) == Fold(ReceiveLabel[k]);
    }
  }

  /** The same field in lower case decides too. */
  lemma LowerCaseReceiveField()
    ensures ParseWindowsNetsh(LowerNetsh) == Success(Some(300.0))
  {
    LowerLabel();
    WindowsReceiveWins("receive rate (mbps)", " ", " ", "300", " transmit rate (mbps) : 54");
    DecimalOfDigits("300", 300);
  }

  /** The value of a digit string, for the examples. */
  lemma DecimalOfDigits(ds: string, n: nat)
    requires AllDigits(ds) && |ds| > 0 && Decimal.DigitsValue(ds) == n
    ensures Decimal.ParseDecimal(ds) == Some(n as real)
  {
    assert Decimal.DotIndex(ds) == |ds|;
    assert ds[..|ds|] == ds;
  }

  const AirportLabel := "lastTxRate:"

  /** No character of `pre` can open a match of a literal starting with
      `c`. */
  predicate Avoids(pre: string, c: char, ci: bool) {
    forall k | 0 <= k < |pre| :: !CharEq(pre[k], c, ci)
  }

  lemma AirChar(pre: string, ws: string, tok: string, rest: string, k: nat)
    requires k < |pre| + |AirportLabel| + |ws| + |tok| + |rest|
    ensures var s := pre + AirportLabel + ws + tok + rest;
            var a := |pre|;
            var c := a + |AirportLabel|;
            var d := c + |ws|;
            var e := d + |tok|;
            && (k < a ==> s[k] == pre[k])
            && (a <= k < c ==> s[k] == AirportLabel[k - a])
            && (c <= k < d ==> s[k] == ws[k - c])
            && (d <= k < e ==> s[k] == tok[k - d])
            && (e <= k ==> s[k] == rest[k - e])
  {
  }

  /** No `lastTxRate:` match starts inside `pre`. */
  lemma AirPrefix(pre: string, ws: string, tok: string, rest: string)
    requires Avoids(pre, 'l', false)
    ensures var s := pre + AirportLabel + ws + tok + rest;
            forall j | 0 <= j < |pre| :: Match(LastTxRate.pattern, s, j, false).None?
  {
    var s := pre + AirportLabel + ws + tok + rest;
    forall j | 0 <= j < |pre|
      ensures Match(LastTxRate.pattern, s, j, false).None?
    {
      AirChar(pre, ws, tok, rest, j);
      LitMiss(LastTxRate, s, j);
    }
  }

  lemma AirLabel(pre: string, ws: string, tok: string, rest: string)
    requires AllSpace(ws) && RateToken(tok, rest)
    ensures var s := pre + AirportLabel + ws + tok + rest;
            var c := |pre| + |AirportLabel|;
            LitAt(s, |pre|, AirportLabel, false) && RunEnd(s, c, Space, false) == c + |ws|
  {
    var s := pre + AirportLabel + ws + tok + rest;
    var c := |pre| + |AirportLabel|;
    var d := c + |ws|;
    forall k | 0 <= k < |AirportLabel|
      ensures CharEq(s[|pre| + k], AirportLabel[k], false)
    {
      AirChar(pre, ws, tok, rest, |pre| + k);
    }
    forall k | c <= k < d
      ensures IsSpace(s[k])
    {
      AirChar(pre, ws, tok, rest, k);
    }
    AirChar(pre, ws, tok, rest, d);
    RunEndIs(s, c, d, Space, false);
  }

  lemma AirToken(pre: string, ws: string, tok: string, rest: string)
    requires RateToken(tok, rest)
    ensures var s := pre + AirportLabel + ws + tok + rest;
            var d := |pre| + |AirportLabel| + |ws|;
            && RunEnd(s, d, DigitOrDot, false) == d + |tok|
            && s[d..d + |tok|] == tok
  {
    var s := pre + AirportLabel + ws + tok + rest;
    var d := |pre| + |AirportLabel| + |ws|;
    var e := d + |tok|;
    forall k | d <= k < e
      ensures s[k] == tok[k - d]
    {
      AirChar(pre, ws, tok, rest, k);
    }
    if e < |s| {
      AirChar(pre, ws, tok, rest, e);
    }
    RunEndIs(s, d, e, DigitOrDot, false);
    assert s[d..e] == tok;
  }

  /** The `lastTxRate:` pattern matched at position `a`. */
  lemma AirMatch(s: string, a: nat, d: nat, e: nat)
    requires LitAt(s, a, AirportLabel, false)
    requires RunEnd(s, a + |AirportLabel|, Space, false) == d
    requires d < e && RunEnd(s, d, DigitOrDot, false) == e
    ensures Match(LastTxRate.pattern, s, a, false) == Some([Span(d, e)])
  {
    var p0 := LastTxRate.pattern;
    var p1 := p0.tail;
    var p2 := p1.tail;
    assert [Span(d, e)] + [] == [Span(d, e)];
    assert Scan(p2, s, d, false) == Some([Span(d, e)]);
    assert Scan(p1, s, a + |AirportLabel|, false) == Scan(p2, s, d, false);
    assert Scan(p0, s, a, false) == Scan(p1, s, a + |AirportLabel|, false);
    PatternsWellFormed();
    MatchIsScan(p0, s, a, false);
  }

  /** The first `lastTxRate:` field decides the macOS reading, whatever
      follows it; the label must be spelled exactly, and a prefix in which
      no `l` occurs (the indentation of airport's output) is skipped. */
  lemma MacosLastTxRateWins(pre: string, ws: string, tok: string, rest: string)
    requires Avoids(pre, 'l', false)
    requires AllSpace(ws) && RateToken(tok, rest)
    ensures ParseMacosAirport(pre + AirportLabel + ws + tok + rest) == FloatToken(tok)
  {
    var s := pre + AirportLabel + ws + tok + rest;
    var d := |pre| + |AirportLabel| + |ws|;
    AirPrefix(pre, ws, tok, rest);
    AirLabel(pre, ws, tok, rest);
    AirToken(pre, ws, tok, rest);
    AirMatch(s, |pre|, d, d + |tok|);
    SearchAt(LastTxRate, s, |pre|, [Span(d, d + |tok|)]);
    MacosHead(s, tok);
  }

  lemma MacosHead(s: string, tok: string)
    requires SearchGroup(LastTxRate, s) == Some(tok)
    ensures ParseMacosAirport(s) == FloatToken(tok)
  {
    MacosPatternsOk();
    assert SearchGroup(MacosPatterns[0], s) == Some(tok);
    FirstOfHead(MacosPatterns, s, tok);
  }

  const AirportIndent := "     "

  /** `     lastTxRate: 866` and a `maxRate` line, in the parts
      `MacosLastTxRateWins` takes. */
  const AirportSample := AirportIndent + AirportLabel + " " + "866" + "\n     maxRate: 1300"

  lemma AirportIndentAvoids()
    ensures Avoids(AirportIndent, 'l', false)
  {
  }

  /** airport's indented `lastTxRate` line yields its value. */
  lemma AirportSampleReading()
    ensures ParseMacosAirport(AirportSample) == Success(Some(866.0))
  {
    AirportIndentAvoids();
    MacosLastTxRateWins(AirportIndent, " ", "866", "\n     maxRate: 1300");
    DecimalOfDigits("866", 866);
  }

  /** Without a `T`, no `lastTxRate:` match exists. */
  lemma NoLastTxRate(s: string)
    requires forall k | 0 <= k < |s| :: s[k] != 'T'
    ensures !Occurs(LastTxRate, s)
  {
    forall j | 0 <= j <= |s|
      ensures Match(LastTxRate.pattern, s, j, false).None?
    {
      assert !LitAt(s, j, AirportLabel, false) by {
        if j + |AirportLabel| <= |s| {
          assert !CharEq(s[j + 4], AirportLabel[4], false);
        }
      }
    }
  }

  /** Without an `M`, no `<n> Mb/s` match exists. */
  lemma NoMbPerSec(s: string)
    requires forall k | 0 <= k < |s| :: s[k] != 'M'
    ensures !Occurs(MbPerSec, s)
  {
    MacosPatternsOk();
    assert RegexOk(MacosPatterns[1]);
    forall j | 0 <= j <= |s|
      ensures Match(MbPerSec.pattern, s, j, false).None?
    {
      MatchIsScan(MbPerSec.pattern, s, j, false);
      NoMbPerSecAt(s, j);
    }
  }

  lemma NoMbPerSecAt(s: string, j: nat)
    requires j <= |s|
    requires forall k | 0 <= k < |s| :: s[k] != 'M'
    ensures Scan(MbPerSec.pattern, s, j, false).None?
  {
    var p := MbPerSec.pattern;
    var k := RunEnd(s, j, DigitOrDot, false);
    if k > j {
      var m := RunEnd(s, k, Space, false);
      assert !LitAt(s, m, "Mb/s", false) by {
        if m + 4 <= |s| {
          assert !CharEq(s[m + 0], "Mb/s"[0], false);
        }
      }
      assert Scan(p.tail.tail, s, m, false).None?;
    }
  }

  /** The airport patterns are case-sensitive: a lower-case label is not
      recognised, and the reading is `None`. */
  lemma LowerCaseAirportIsUnknown()
    ensures ParseMacosAirport("lasttxrate: 5") == Success(None)
  {
    NoLastTxRate("lasttxrate: 5");
    NoMbPerSec("lasttxrate: 5");
  }

  const BitRateLabel := "Bit Rate"

  /** Positions in `pre + name + [sep] + ws1 + tok + ws2 + unit + rest`. */
  lemma IwChar(pre: string, name: string, sep: char, ws1: string, tok: string, ws2: string,
               unit: string, rest: string, k: nat)
    requires k < |pre| + |name| + 1 + |ws1| + |tok| + |ws2| + |unit| + |rest|
    ensures var s := pre + name + [sep] + ws1 + tok + ws2 + unit + rest;
            var a := |pre|;
            var b := a + |name|;
            var d := b + 1 + |ws1|;
            var e := d + |tok|;
            var m := e + |ws2|;
            var u := m + |unit|;
            && (k < a ==> s[k] == pre[k])
            && (a <= k < b ==> s[k] == name[k - a])
            && (k == b ==> s[k] == sep)
            && (b < k < d ==> s[k] == ws1[k - b - 1])
            && (d <= k < e ==> s[k] == tok[k - d])
            && (e <= k < m ==> s[k] == ws2[k - e])
            && (m <= k < u ==> s[k] == unit[k - m])
            && (u <= k ==> s[k] == rest[k - u])
  {
  }

  /** No `Bit Rate` match starts inside `pre`. */
  lemma IwPrefix(pre: string, name: string, sep: char, ws1: string, tok: string, ws2: string,
                 unit: string, rest: string)
    requires Avoids(pre, 'B', true)
    ensures var s := pre + name + [sep] + ws1 + tok + ws2 + unit + rest;
            forall j | 0 <= j < |pre| :: Match(BitRate.pattern, s, j, true).None?
  {
    var s := pre + name + [sep] + ws1 + tok + ws2 + unit + rest;
    forall j | 0 <= j < |pre|
      ensures Match(BitRate.pattern, s, j, true).None?
    {
      IwChar(pre, name, sep, ws1, tok, ws2, unit, rest, j);
      LitMiss(BitRate, s, j);
    }
  }

  /** The label and the `[:=]` separator. */
  lemma IwLabel(pre: string, name: string, sep: char, ws1: string, tok: string, ws2: string,
                unit: string, rest: string)
    requires SpellsCaseless(name, BitRateLabel) && (sep == ':' || sep == '=')
    ensures var s := pre + name + [sep] + ws1 + tok + ws2 + unit + rest;
            var b := |pre| + |name|;
            LitAt(s, |pre|, BitRateLabel, true) && b < |s| && InClass(s[b], AnyOf(":="), true)
  {
    var s := pre + name + [sep] + ws1 + tok + ws2 + unit + rest;
    var b := |pre| + |name|;
    forall k | 0 <= k < |name|
      ensures CharEq(s[|pre| + k], BitRateLabel[k], true)
    {
      IwChar(pre, name, sep, ws1, tok, ws2, unit, rest, |pre| + k);
    }
    IwChar(pre, name, sep, ws1, tok, ws2, unit, rest, b);
    assert CharEq(s[b], ":="[if sep == ':' then 0 else 1], true);
  }

  /** The spaces before the value. */
  lemma IwLead(pre: string, name: string, sep: char, ws1: string, tok: string, ws2: string,
               unit: string, rest: string)
    requires AllSpace(ws1) && |tok| > 0 && Decimal.IsRateChar(tok[0])
    ensures var s := pre + name + [sep] + ws1 + tok + ws2 + unit + rest;
            var b := |pre| + |name|;
            RunEnd(s, b + 1, Space, true) == b + 1 + |ws1|
  {
    var s := pre + name + [sep] + ws1 + tok + ws2 + unit + rest;
    var b := |pre| + |name|;
    var d := b + 1 + |ws1|;
    forall k | b + 1 <= k < d
      ensures IsSpace(s[k])
    {
      IwChar(pre, name, sep, ws1, tok, ws2, unit, rest, k);
    }
    IwChar(pre, name, sep, ws1, tok, ws2, unit, rest, d);
    RunEndIs(s, b + 1, d, Space, true);
  }

  /** The value token: it ends where the spaces or the unit begin. */
  lemma IwToken(pre: string, name: string, sep: char, ws1: string, tok: string, ws2: string,
                unit: string, rest: string)
    requires RateToken(tok, unit) && |unit| > 0 && AllSpace(ws2)
    ensures var s := pre + name + [sep] + ws1 + tok + ws2 + unit + rest;
            var d := |pre| + |name| + 1 + |ws1|;
            && RunEnd(s, d, DigitOrDot, true) == d + |tok|
            && s[d..d + |tok|] == tok
  {
    var s := pre + name + [sep] + ws1 + tok + ws2 + unit + rest;
    var d := |pre| + |name| + 1 + |ws1|;
    var e := d + |tok|;
    forall k | d <= k < e
      ensures s[k] == tok[k - d]
    {
      IwChar(pre, name, sep, ws1, tok, ws2, unit, rest, k);
    }
    IwChar(pre, name, sep, ws1, tok, ws2, unit, rest, e);
    if ws2 == [] {
      assert s[e] == unit[0];
    } else {
      assert IsSpace(ws2[0]);
    }
    RunEndIs(s, d, e, DigitOrDot, true);
    assert s[d..e] == tok;
  }

  /** The spaces after the value and the `Mb` unit. */
  lemma IwUnit(pre: string, name: string, sep: char, ws1: string, tok: string, ws2: string,
               unit: string, rest: string)
    requires AllSpace(ws2) && SpellsCaseless(unit, "Mb")
    ensures var s := pre + name + [sep] + ws1 + tok + ws2 + unit + rest;
            var e := |pre| + |name| + 1 + |ws1| + |tok|;
            RunEnd(s, e, Space, true) == e + |ws2| && LitAt(s, e + |ws2|, "Mb", true)
  {
    var s := pre + name + [sep] + ws1 + tok + ws2 + unit + rest;
    var e := |pre| + |name| + 1 + |ws1| + |tok|;
    var m := e + |ws2|;
    forall k | e <= k < m
      ensures IsSpace(s[k])
    {
      IwChar(pre, name, sep, ws1, tok, ws2, unit, rest, k);
    }
    forall k | 0 <= k < 2
      ensures CharEq(s[m + k], "Mb"[k], true)
    {
      IwChar(pre, name, sep, ws1, tok, ws2, unit, rest, m + k);
    }
    IwChar(pre, name, sep, ws1, tok, ws2, unit, rest, m);
    assert !IsSpace(s[m]) by {
      assert Fold(s[m]) == 'm';
    }
    RunEndIs(s, e, m, Space, true);
  }

  /** The `Bit Rate` pattern matched at position `a`. */
  lemma IwMatch(s: string, a: nat, d: nat, e: nat, m: nat)
    requires BitRateFront(s, a, d) && BitRateBack(s, d, e, m)
    ensures Match(BitRate.pattern, s, a, true) == Some([Span(d, e)])
  {
    var p0 := BitRate.pattern;
    var p1 := p0.tail;
    var p2 := p1.tail;
    var p3 := p2.tail;
    var p4 := p3.tail;
    var p5 := p4.tail;
    assert Scan(p5, s, m, true) == Some([]);
    assert Scan(p4, s, e, true) == Some([]);
    assert [Span(d, e)] + [] == [Span(d, e)];
    assert Scan(p3, s, d, true) == Some([Span(d, e)]);
    assert Scan(p2, s, a + |BitRateLabel| + 1, true) == Scan(p3, s, d, true);
    assert Scan(p1, s, a + |BitRateLabel|, true) == Scan(p2, s, a + |BitRateLabel| + 1, true);
    assert Scan(p0, s, a, true) == Scan(p1, s, a + |BitRateLabel|, true);
    PatternsWellFormed();
    MatchIsScan(p0, s, a, true);
  }

  lemma IwconfigHead(s: string, a: nat, d: nat, e: nat, tok: string)
    requires Search(BitRate, s) == Some(Found(a, [Span(d, e)]))
    requires d <= e <= |s| && s[d..e] == tok
    ensures ParseLinuxIwconfig(s) == FloatToken(tok)
  {
    IwconfigPatternsOk();
    assert SearchGroup(IwconfigPatterns[0], s) == Some(tok);
    FirstOfHead(IwconfigPatterns, s, tok);
  }

  /** The first `Bit Rate[:=] <n> Mb` field decides the iwconfig reading,
      in any letter case, whatever follows it (a `tx bitrate` line
      included); a prefix without a `b` is skipped. */
  lemma IwconfigBitRateWins(pre: string, name: string, sep: char, ws1: string, tok: string,
                            ws2: string, unit: string, rest: string)
    requires Avoids(pre, 'B', true)
    requires SpellsCaseless(name, BitRateLabel) && (sep == ':' || sep == '=')
    requires AllSpace(ws1) && AllSpace(ws2) && RateToken(tok, unit)
    requires SpellsCaseless(unit, "Mb")
    ensures ParseLinuxIwconfig(pre + name + [sep] + ws1 + tok + ws2 + unit + rest) == FloatToken(tok)
  {
    var s := pre + name + [sep] + ws1 + tok + ws2 + unit + rest;
    var a := |pre|;
    var d := a + |name| + 1 + |ws1|;
    var e := d + |tok|;
    IwPrefix(pre, name, sep, ws1, tok, ws2, unit, rest);
    IwFront(s, pre, name, sep, ws1, tok, ws2, unit, rest, d);
    IwBack(s, pre, name, sep, ws1, tok, ws2, unit, rest, d);
    IwHeadAt(s, a, d, e, e + |ws2|, tok);
  }

  /** An iwconfig `Bit Rate` field: label, separator, spaces, value,
      spaces and unit. */
  predicate IwField(name: string, sep: char, ws1: string, tok: string, ws2: string, unit: string) {
    && SpellsCaseless(name, BitRateLabel) && (sep == ':' || sep == '=')
    && AllSpace(ws1) && AllSpace(ws2) && RateToken(tok, unit)
    && SpellsCaseless(unit, "Mb")
  }

  /** `s` holds the label at `a`, a separator, and spaces up to `d`. */
  predicate BitRateFront(s: string, a: nat, d: nat) {
    && LitAt(s, a, BitRateLabel, true)
    && a + |BitRateLabel| < |s| && InClass(s[a + |BitRateLabel|], AnyOf(":="), true)
    && RunEnd(s, a + |BitRateLabel| + 1, Space, true) == d
  }

  /** `s` holds a value run from `d` to `e`, spaces up to `m` and the unit. */
  predicate BitRateBack(s: string, d: nat, e: nat, m: nat) {
    && d < e <= |s| && RunEnd(s, d, DigitOrDot, true) == e
    && RunEnd(s, e, Space, true) == m && LitAt(s, m, "Mb", true)
  }

  /** A `Bit Rate` field laid out at `a`, with no match before it, decides
      the iwconfig reading. */
  lemma IwHeadAt(s: string, a: nat, d: nat, e: nat, m: nat, tok: string)
    requires BitRateFront(s, a, d) && BitRateBack(s, d, e, m) && s[d..e] == tok
    requires forall j | 0 <= j < a :: Match(BitRate.pattern, s, j, true).None?
    ensures ParseLinuxIwconfig(s) == FloatToken(tok)
  {
    IwMatch(s, a, d, e, m);
    SearchAt(BitRate, s, a, [Span(d, e)]);
    IwconfigHead(s, a, d, e, tok);
  }

  /** The label, the separator and the spaces before the value. */
  lemma IwFront(s: string, pre: string, name: string, sep: char, ws1: string, tok: string,
                ws2: string, unit: string, rest: string, d: nat)
    requires s == pre + name + [sep] + ws1 + tok + ws2 + unit + rest
    requires IwField(name, sep, ws1, tok, ws2, unit) && d == |pre| + |name| + 1 + |ws1|
    ensures BitRateFront(s, |pre|, d)
  {
    assert |name| == |BitRateLabel|;
    IwLabel(pre, name, sep, ws1, tok, ws2, unit, rest);
    IwLead(pre, name, sep, ws1, tok, ws2, unit, rest);
  }

  /** The value token, the spaces after it and the `Mb` unit. */
  lemma IwBack(s: string, pre: string, name: string, sep: char, ws1: string, tok: string,
               ws2: string, unit: string, rest: string, d: nat)
    requires s == pre + name + [sep] + ws1 + tok + ws2 + unit + rest
    requires IwField(name, sep, ws1, tok, ws2, unit) && d == |pre| + |name| + 1 + |ws1|
    ensures BitRateBack(s, d, d + |tok|, d + |tok| + |ws2|) && s[d..d + |tok|] == tok
  {
    IwToken(pre, name, sep, ws1, tok, ws2, unit, rest);
    IwUnit(pre, name, sep, ws1, tok, ws2, unit, rest);
  }

  /** The transmit-rate field is read only when no receive-rate field
      matches. */
  lemma WindowsTransmitFallback(out: string, tok: string)
    requires !Occurs(ReceiveRate, out)
    requires SearchGroup(TransmitRate, out) == Some(tok)
    ensures ParseWindowsNetsh(out) == FloatToken(tok)
  {
    WindowsPatternsOk();
    assert WindowsPatterns[0] == ReceiveRate && WindowsPatterns[1] == TransmitRate;
    FirstOfPicks(WindowsPatterns, out, 1, tok);
  }

  /** The token a search for a pattern opening with `([\d\.]+)` reports: the
      maximal digit/dot run at the match, which starts the text or follows
      a character outside `[\d\.]`. */
  function RunToken(out: string, f: Found, ci: bool): (tok: string)
    requires f.start <= |out|
    ensures forall k | 0 <= k < |tok| :: Decimal.IsRateChar(tok[k])
    ensures f.start + |tok| < |out| ==> !Decimal.IsRateChar(out[f.start + |tok|])
  {
    out[f.start..RunEnd(out, f.start, DigitOrDot, ci)]
  }

  lemma WindowsBareDecides(out: string, tok: string)
    requires !Occurs(ReceiveRate, out) && !Occurs(TransmitRate, out)
    requires SearchGroup(BareMbps, out) == Some(tok)
    ensures ParseWindowsNetsh(out) == FloatToken(tok)
  {
    WindowsPatternsOk();
    assert WindowsPatterns[0] == ReceiveRate && WindowsPatterns[1] == TransmitRate;
    assert WindowsPatterns[2] == BareMbps;
    FirstOfPicks(WindowsPatterns, out, 2, tok);
  }

  /** The bare `<n> Mbps` token is read only when neither field matches,
      and it is the first digit/dot run that spaces and `Mbps` follow. */
  lemma WindowsBareFallback(out: string, f: Found)
    requires !Occurs(ReceiveRate, out) && !Occurs(TransmitRate, out)
    requires Search(BareMbps, out) == Some(f)
    ensures f.start == 0 || !Decimal.IsRateChar(out[f.start - 1])
    ensures ParseWindowsNetsh(out) == FloatToken(RunToken(out, f, true))
  {
    PatternsWellFormed();
    LeadingGroupIsMaximalRun(BareMbps, out, f);
    assert SearchGroup(BareMbps, out) == Some(RunToken(out, f, true));
    WindowsBareDecides(out, RunToken(out, f, true));
  }

  /** The `tx`/`rx bitrate` line is read only when no `Bit Rate` field
      matches. */
  lemma IwconfigTxFallback(out: string, tok: string)
    requires !Occurs(BitRate, out)
    requires SearchGroup(TxRxBitrate, out) == Some(tok)
    ensures ParseLinuxIwconfig(out) == FloatToken(tok)
  {
    IwconfigPatternsOk();
    assert IwconfigPatterns[0] == BitRate && IwconfigPatterns[1] == TxRxBitrate;
    FirstOfPicks(IwconfigPatterns, out, 1, tok);
  }

  /** The `<n> Mb/s` token is read only when no `lastTxRate:` field
      matches, and it is the first digit/dot run that spaces and `Mb/s`
      follow. */
  lemma MacosMbPerSecFallback(out: string, f: Found)
    requires !Occurs(LastTxRate, out)
    requires Search(MbPerSec, out) == Some(f)
    ensures f.start == 0 || !Decimal.IsRateChar(out[f.start - 1])
    ensures ParseMacosAirport(out) == FloatToken(RunToken(out, f, false))
  {
    PatternsWellFormed();
    LeadingGroupIsMaximalRun(MbPerSec, out, f);
    assert SearchGroup(MbPerSec, out) == Some(RunToken(out, f, false));
    MacosMbPerSecDecides(out, RunToken(out, f, false));
  }

  lemma MacosMbPerSecDecides(out: string, tok: string)
    requires !Occurs(LastTxRate, out)
    requires SearchGroup(MbPerSec, out) == Some(tok)
    ensures ParseMacosAirport(out) == FloatToken(tok)
  {
    MacosPatternsOk();
    assert MacosPatterns[1] == MbPerSec;
    assert forall k | 0 <= k < 1 :: !Occurs(MacosPatterns[k], out);
    FirstOfPicks(MacosPatterns, out, 1, tok);
    assert ParseMacosAirport(out) == FirstOf(MacosPatterns, out);
  }

  lemma NmcliScans(out: string, f: Found)
    requires Search(NmcliRate, out) == Some(f)
    ensures Scan(NmcliRate.pattern, out, f.start, false).Some?
  {
    PatternsWellFormed();
    MatchIsScan(NmcliRate.pattern, out, f.start, false);
  }

  /** What follows the group of an nmcli match is an `M`. */
  lemma NmcliUnit(out: string, i: nat)
    requires i <= |out| && Scan(NmcliRate.pattern, out, i, false).Some?
    ensures RunEnd(out, i, DigitOrDot, false) < |out|
            && out[RunEnd(out, i, DigitOrDot, false)] == 'M'
  {
    var e := RunEnd(out, i, DigitOrDot, false);
    assert Scan(NmcliRate.pattern.tail, out, e, false).Some?;
    assert LitAt(out, e, "M", false);
    assert CharEq(out[e + 0], "M"[0], false);
  }

  lemma NmcliGroup(out: string, f: Found)
    requires Search(NmcliRate, out) == Some(f) && f.start <= |out|
    requires f.groups[0] == Span(f.start, RunEnd(out, f.start, DigitOrDot, false))
    ensures SearchGroup(NmcliRate, out) == Some(RunToken(out, f, false))
  {
  }

  lemma NmcliHead(out: string, tok: string)
    requires SearchGroup(NmcliRate, out) == Some(tok)
    ensures NmcliReading(out) == FloatToken(tok)
  {
    PatternsWellFormed();
    var rs := [NmcliRate];
    assert rs[0] == NmcliRate;
    FirstOfPicks(rs, out, 0, tok);
  }

  /** The run an nmcli match captures is directly followed by `M`. */
  lemma NmcliTokenBeforeM(out: string, f: Found)
    requires Search(NmcliRate, out) == Some(f)
    ensures RunEnd(out, f.start, DigitOrDot, false) < |out|
            && out[RunEnd(out, f.start, DigitOrDot, false)] == 'M'
  {
    NmcliScans(out, f);
    NmcliUnit(out, f.start);
  }

  /** nmcli's reading is the first digit/dot run that an `M` follows
      (`NmcliTokenBeforeM`): a maximal run, converted with `float()`. */
  lemma NmcliFirstToken(out: string, f: Found)
    requires Search(NmcliRate, out) == Some(f)
    ensures f.start == 0 || !Decimal.IsRateChar(out[f.start - 1])
    ensures NmcliReading(out) == FloatToken(RunToken(out, f, false))
  {
    PatternsWellFormed();
    LeadingGroupIsMaximalRun(NmcliRate, out, f);
    NmcliGroup(out, f);
    NmcliHead(out, RunToken(out, f, false));
  }

  /** iwconfig's reading decides the Linux cascade when it is truthy or
      raises; iw and nmcli are then never consulted. */
  lemma LinuxFirstDecides(run: Runner, iwOut: string, nmcliOut: string)
    requires var first := ParseLinuxIwconfig(run(IwconfigCmd));
             first.Failure? || Truthy(first.value)
    ensures LinuxLinkSpeed(run) == ParseLinuxIwconfig(run(IwconfigCmd))
    ensures LinuxLinkSpeed(Override(Override(run, IwCmd, iwOut), NmcliCmd, nmcliOut))
            == LinuxLinkSpeed(run)
  {
    var run' := Override(Override(run, IwCmd, iwOut), NmcliCmd, nmcliOut);
    assert run'(IwconfigCmd) == run(IwconfigCmd);
  }

  /** A falsy iwconfig reading (`None` or `0.0`) is the same as no output
      at all: the cascade moves on to iw. */
  lemma LinuxZeroLikeSilence(run: Runner)
    requires var first := ParseLinuxIwconfig(run(IwconfigCmd));
             first.Success? && !Truthy(first.value)
    ensures LinuxLinkSpeed(run) == LinuxLinkSpeed(Override(run, IwconfigCmd, ""))
  {
    EmptyOutputIsUnknown();
    var run' := Override(run, IwconfigCmd, "");
    assert run'(IwCmd) == run(IwCmd) && run'(NmcliCmd) == run(NmcliCmd);
  }

  /** The order of the Linux cascade: iwconfig, then iw (parsed the same
      way), then nmcli, each consulted only when the ones before it gave a
      falsy reading without raising. */
  lemma LinuxCascadeOrder(run: Runner)
    ensures var first := ParseLinuxIwconfig(run(IwconfigCmd));
            var second := ParseLinuxIwconfig(run(IwCmd));
            && (first.Success? && !Truthy(first.value) && (second.Failure? || Truthy(second.value))
                ==> LinuxLinkSpeed(run) == second)
            && (first.Success? && !Truthy(first.value) && second.Success? && !Truthy(second.value)
                ==> LinuxLinkSpeed(run) == NmcliReading(run(NmcliCmd)))
    ensures LinuxLinkSpeed(run).Success? && LinuxLinkSpeed(run).value.Some?
            && !Truthy(LinuxLinkSpeed(run).value)
            ==> LinuxLinkSpeed(run) == NmcliReading(run(NmcliCmd))
  {
  }

  /** `get_link_speed` runs only the commands of its platform's prober:
      changing the output of any other command changes nothing, and a
      platform outside the three prefixes reads nothing at all. */
  lemma DispatchReadsOnlyItsTool(platform: string, run: Runner, cmd: string, out: string)
    ensures StartsWith(platform, "win") && cmd != NetshCmd
            ==> GetLinkSpeed(platform, Override(run, cmd, out)) == GetLinkSpeed(platform, run)
    ensures !StartsWith(platform, "win") && StartsWith(platform, "linux")
            && cmd != IwconfigCmd && cmd != IwCmd && cmd != NmcliCmd
            ==> GetLinkSpeed(platform, Override(run, cmd, out)) == GetLinkSpeed(platform, run)
    ensures !StartsWith(platform, "win") && !StartsWith(platform, "linux")
            && StartsWith(platform, "darwin") && cmd != AirportCmd
            ==> GetLinkSpeed(platform, Override(run, cmd, out)) == GetLinkSpeed(platform, run)
    ensures !StartsWith(platform, "win") && !StartsWith(platform, "linux")
            && !StartsWith(platform, "darwin")
            ==> GetLinkSpeed(platform, run) == None
  {
    var run' := Override(run, cmd, out);
    if cmd != NetshCmd {
      assert run'(NetshCmd) == run(NetshCmd);
    }
    if cmd != IwconfigCmd && cmd != IwCmd && cmd != NmcliCmd {
      assert run'(IwconfigCmd) == run(IwconfigCmd);
      assert run'(IwCmd) == run(IwCmd);
      assert run'(NmcliCmd) == run(NmcliCmd);
    }
    if cmd != AirportCmd {
      assert run'(AirportCmd) == run(AirportCmd);
    }
  }

  const IwconfigHeader := "wlan0     ESSID:\"home\"\n          "

  /** An iwconfig listing whose second line is
      `Bit Rate=54 Mb/s   Tx-Power=20 dBm`, in the parts
      `IwconfigBitRateWins` takes. */
  const IwconfigSample :=
    IwconfigHeader + BitRateLabel + ['='] + "" + "54" + " " + "Mb" + "/s   Tx-Power=20 dBm"

  lemma IwconfigHeaderAvoids()
    ensures Avoids(IwconfigHeader, 'B', true)
  {
  }

  /** iwconfig's `Bit Rate=54 Mb/s` line yields 54. */
  lemma IwconfigSampleReading()
    ensures ParseLinuxIwconfig(IwconfigSample) == Success(Some(54.0))
  {
    IwconfigHeaderAvoids();
    IwconfigBitRateWins(IwconfigHeader, BitRateLabel, '=', "", "54", " ", "Mb", "/s   Tx-Power=20 dBm");
    DecimalOfDigits("54", 54);
  }

  /** The iwconfig line `Bit Rate=0 Mb/s`, in the parts
      `IwconfigBitRateWins` takes (an empty prefix first). */
  const ZeroBitRateLine := "" + BitRateLabel + ['='] + "" + "0" + " " + "Mb" + "/s"

  lemma ZeroBitRate()
    ensures ParseLinuxIwconfig(ZeroBitRateLine) == Success(Some(0.0))
  {
    IwconfigBitRateWins("", BitRateLabel, '=', "", "0", " ", "Mb", "/s");
    DecimalOfDigits("0", 0);
  }

  lemma LinuxZeroReading(run: Runner)
    requires ParseLinuxIwconfig(run(IwconfigCmd)) == Success(Some(0.0))
    requires run(IwCmd) == "" && run(NmcliCmd) == ""
    ensures LinuxLinkSpeed(run) == Success(None)
  {
    EmptyOutputIsUnknown();
  }

  /** A link that iwconfig reports at 0 Mb/s, with iw and nmcli silent, is
      reported as unknown, not as 0. */
  lemma LinuxZeroIsUnknown(run: Runner)
    requires run(IwconfigCmd) == ZeroBitRateLine
    requires run(IwCmd) == "" && run(NmcliCmd) == ""
    ensures GetLinkSpeed("linux", run) == None
  {
    ZeroBitRate();
    LinuxZeroReading(run);
    PlatformNames();
  }

  /** The platform strings of the examples and the prefixes they carry. */
  lemma PlatformNames()
    ensures StartsWith("win32", "win")
    ensures !StartsWith("linux", "win") && StartsWith("linux", "linux")
    ensures !StartsWith("darwin", "win") && !StartsWith("darwin", "linux")
    ensures StartsWith("darwin", "darwin")
  {
    assert "linux"[..3][0] != "win"[0];
    assert "darwin"[..3][0] != "win"[0];
    assert "darwin"[..5][0] != "linux"[0];
    assert "win32"[..3] == "win";
    assert "linux"[..5] == "linux";
    assert "darwin"[..6] == "darwin";
  }

  /** End to end: a Linux host whose iwconfig prints the sample listing
      reports 54 Mbit/s, whatever the other tools print. */
  lemma LinuxSampleSpeed(run: Runner)
    requires run(IwconfigCmd) == IwconfigSample
    ensures GetLinkSpeed("linux", run) == Some(54.0)
  {
    IwconfigSampleReading();
    LinuxReports(run, 54.0);
  }

  /** A Linux host whose iwconfig reading is a non-zero rate reports it. */
  lemma LinuxReports(run: Runner, x: real)
    requires ParseLinuxIwconfig(run(IwconfigCmd)) == Success(Some(x)) && x != 0.0
    ensures GetLinkSpeed("linux", run) == Some(x)
  {
    PlatformNames();
  }

  /** End to end: a Windows host whose netsh prints the lower-case sample
      reports its receive rate. */
  lemma WindowsSampleSpeed(run: Runner)
    requires run(NetshCmd) == LowerNetsh
    ensures GetLinkSpeed("win32", run) == Some(300.0)
  {
    LowerCaseReceiveField();
  }

  /** End to end: a macOS host whose airport tool prints the sample
      reports its `lastTxRate`. */
  lemma MacosSampleSpeed(run: Runner)
    requires run(AirportCmd) == AirportSample
    ensures GetLinkSpeed("darwin", run) == Some(866.0)
  {
    AirportSampleReading();
    MacosReports(run, 866.0);
  }

  /** A macOS host reports the airport reading. */
  lemma MacosReports(run: Runner, x: real)
    requires ParseMacosAirport(run(AirportCmd)) == Success(Some(x))
    ensures GetLinkSpeed("darwin", run) == Some(x)
  {
    PlatformNames();
  }

  /** The `iw dev wlan0 link` line quoted beside the second iwconfig
      search. */
  const IwTxSample := "tx bitrate: 144.4 MBit/s"

  /** Apart from index 3, no character of the line before index 17 is a
      `b` in either case. */
  lemma IwTxFewB()
    ensures forall k | 0 <= k < 17 && k != 3 :: !CharEq(IwTxSample[k], 'B', true)
  {
  }

  /** `Bit Rate` occurs nowhere in the line: its only `b` is followed
      by `r`, not a space. */
  lemma IwTxNoLabelAt(j: nat)
    ensures !LitAt(IwTxSample, j, BitRateLabel, true)
  {
    var s := IwTxSample;
    if j == 3 {
      assert !CharEq(s[j + 3], BitRateLabel[3], true);
    } else if j + |BitRateLabel| <= |s| {
      IwTxFewB();
      assert !CharEq(s[j + 0], BitRateLabel[0], true);
    }
  }

  /** So the `Bit Rate` search misses the line. */
  lemma NoBitRateInIwTx()
    ensures !Occurs(BitRate, IwTxSample)
  {
    forall j | 0 <= j <= |IwTxSample|
      ensures Match(BitRate.pattern, IwTxSample, j, true).None?
    {
      IwTxNoLabelAt(j);
      LitAbsent(BitRate, IwTxSample, j);
    }
  }

  /** The line carries `x bitrate` after its first character. */
  lemma IwTxLabel()
    ensures LitAt(IwTxSample, 1, "x bitrate", true)
  {
  }

  /** The runs the pattern's classes take in the line: one space at 11,
      the digits and dot of `144.4` at 12 to 17, one space at 17, then
      the `M`. */
  lemma IwTxRuns()
    ensures RunEnd(IwTxSample, 11, Space, true) == 12
    ensures RunEnd(IwTxSample, 12, DigitOrDot, true) == 17
    ensures RunEnd(IwTxSample, 17, Space, true) == 18
    ensures LitAt(IwTxSample, 18, "M", true)
    ensures IwTxSample[12..17] == "144.4"
  {
    var s := IwTxSample;
    RunEndIs(s, 11, 12, Space, true);
    RunEndIs(s, 12, 17, DigitOrDot, true);
    RunEndIs(s, 17, 18, Space, true);
  }

  /** A line opening with `tx bitrate` or `rx bitrate`, a `:` or `=`,
      spaces up to `d`, a digit/dot run from `d` to `e`, spaces up to
      `f` and an `M` matches the pattern at its start, capturing the run. */
  lemma TxRxAtStart(s: string, d: nat, e: nat, f: nat)
    requires |s| > 10 && (CharEq(s[0], 't', true) || CharEq(s[0], 'r', true))
    requires LitAt(s, 1, "x bitrate", true)
    requires CharEq(s[10], ':', true) || CharEq(s[10], '=', true)
    requires RunEnd(s, 11, Space, true) == d
    requires d < e && RunEnd(s, d, DigitOrDot, true) == e
    requires RunEnd(s, e, Space, true) == f
    requires LitAt(s, f, "M", true)
    ensures Match(TxRxBitrate.pattern, s, 0, true) == Some([Span(d, e)])
  {
    var p0 := TxRxBitrate.pattern;
    var p1 := p0.tail;
    var p2 := p1.tail;
    var p4 := p2.tail.tail;
    var p6 := p4.tail.tail;
    assert Scan(p6, s, f, true) == Some([]);
    assert [Span(d, e)] + [] == [Span(d, e)];
    assert Scan(p4, s, d, true) == Some([Span(d, e)]);
    assert InClass(s[10], AnyOf(":="), true) by {
      if !CharEq(s[10], ":="[0], true) {
        assert CharEq(s[10], ":="[1], true);
      }
    }
    assert Scan(p2, s, 10, true) == Scan(p4, s, d, true);
    assert Scan(p1, s, 1, true) == Scan(p2, s, 10, true);
    assert InClass(s[0], AnyOf("tr"), true) by {
      if !CharEq(s[0], "tr"[0], true) {
        assert CharEq(s[0], "tr"[1], true);
      }
    }
    assert Scan(p0, s, 0, true) == Scan(p1, s, 1, true);
    PatternsWellFormed();
    MatchIsScan(p0, s, 0, true);
  }

  /** The `(tx|rx) bitrate` pattern matches the line at its start and
      captures `144.4`. */
  lemma IwTxMatch()
    ensures Match(TxRxBitrate.pattern, IwTxSample, 0, true) == Some([Span(12, 17)])
  {
    IwTxRuns();
    IwTxLabel();
    TxRxAtStart(IwTxSample, 12, 17, 18);
  }

  /** So the second iwconfig search captures `144.4`. */
  lemma IwTxGroup()
    ensures SearchGroup(TxRxBitrate, IwTxSample) == Some("144.4")
  {
    IwTxMatch();
    IwTxRuns();
    SearchAtStart(TxRxBitrate, IwTxSample, [Span(12, 17)]);
  }

  /** iw's `tx bitrate: 144.4 MBit/s` reads 144.4: the `Bit Rate` search
      misses it and the second search reads the fractional rate. */
  lemma IwTxSampleReading()
    ensures ParseLinuxIwconfig(IwTxSample) == Success(Some(144.4))
  {
    NoBitRateInIwTx();
    IwTxGroup();
    IwconfigTxFallback(IwTxSample, "144.4");
    Decimal.ParseFractionExample();
  }

  /** Without a `v` in either case, no `Receive rate (Mbps)` field
      matches: the label's sixth letter is a `v`. */
  lemma NoReceiveRate(s: string)
    requires Avoids(s, 'v', true)
    ensures !Occurs(ReceiveRate, s)
  {
    forall j | 0 <= j <= |s|
      ensures Match(ReceiveRate.pattern, s, j, true).None?
    {
      if j + |ReceiveLabel| <= |s| {
        assert !CharEq(s[j + 5], ReceiveLabel[5], true);
      }
      LitAbsent(ReceiveRate, s, j);
    }
  }

  /** Without a `t` in either case, no `Transmit rate (Mbps)` field
      matches. */
  lemma NoTransmitRate(s: string)
    requires Avoids(s, 'T', true)
    ensures !Occurs(TransmitRate, s)
  {
    forall j | 0 <= j <= |s|
      ensures Match(TransmitRate.pattern, s, j, true).None?
    {
      if j < |s| {
        LitMiss(TransmitRate, s, j);
      } else {
        LitAbsent(TransmitRate, s, j);
      }
    }
  }

  /** A transmit-rate field at the start of the output decides the
      Windows reading when no receive-rate field occurs anywhere in it. */
  lemma WindowsTransmitWins(name: string, ws1: string, ws2: string, tok: string, rest: string)
    requires SpellsCaseless(name, TransmitLabel)
    requires AllSpace(ws1) && AllSpace(ws2) && RateToken(tok, rest)
    requires !Occurs(ReceiveRate, name + ws1 + ":" + ws2 + tok + rest)
    ensures ParseWindowsNetsh(name + ws1 + ":" + ws2 + tok + rest) == FloatToken(tok)
  {
    var s := name + ws1 + ":" + ws2 + tok + rest;
    var b := |name| + |ws1|;
    var d := b + 1 + |ws2|;
    var e := d + |tok|;
    assert RunEnd(s, |name|, Space, true) == b && LitAt(s, b, ":", true) by {
      FieldColon(name, ws1, ws2, tok, rest);
    }
    assert RunEnd(s, b + 1, Space, true) == d by {
      FieldValueStart(name, ws1, ws2, tok, rest);
    }
    assert RunEnd(s, d, DigitOrDot, true) == e && s[d..e] == tok by {
      FieldToken(name, ws1, ws2, tok, rest);
    }
    assert LitAt(s, 0, TransmitLabel, true) by {
      forall k | 0 <= k < |name|
        ensures CharEq(s[k], TransmitLabel[k], true)
      {
        assert s[k] == name[k];
      }
    }
    FieldAtStart(TransmitLabel, s, b, d, e);
    WindowsTransmitFallback(s, tok);
  }

  /** A pattern opening with `([\d\.]+)` cannot match where no digit or
      dot stands. */
  lemma NoGroupBefore(r: Regex, s: string, i: nat)
    requires RegexOk(r) && r.pattern.Then? && r.pattern.head == Group(DigitOrDot)
    requires i <= |s| && forall k | 0 <= k < i :: !Decimal.IsRateChar(s[k])
    ensures forall j | 0 <= j < i :: Match(r.pattern, s, j, r.ignoreCase).None?
  {
    forall j | 0 <= j < i
      ensures Match(r.pattern, s, j, r.ignoreCase).None?
    {
      MatchIsScan(r.pattern, s, j, r.ignoreCase);
      RunEndIs(s, j, j, DigitOrDot, r.ignoreCase);
    }
  }

  /** A search for `([\d\.]+)\s*<w>` reports the digit/dot run from `i`
      to `e` when spaces up to `f` and then `w` follow it and no digit or
      dot stands before `i`. */
  lemma UnitAt(r: Regex, w: string, s: string, i: nat, e: nat, f: nat)
    requires RegexOk(r) && r.pattern == Then(Group(DigitOrDot), Then(Star(Space), Then(Lit(w), End)))
    requires i <= |s| && forall k | 0 <= k < i :: !Decimal.IsRateChar(s[k])
    requires RunEnd(s, i, DigitOrDot, r.ignoreCase) == e && i < e
    requires RunEnd(s, e, Space, r.ignoreCase) == f
    requires LitAt(s, f, w, r.ignoreCase)
    ensures SearchGroup(r, s) == Some(s[i..e])
  {
    var p := r.pattern;
    var ci := r.ignoreCase;
    assert Scan(p.tail.tail, s, f, ci) == Some([]);
    assert Scan(p.tail, s, e, ci) == Some([]);
    assert [Span(i, e)] + [] == [Span(i, e)];
    assert Scan(p, s, i, ci) == Some([Span(i, e)]);
    MatchIsScan(p, s, i, ci);
    NoGroupBefore(r, s, i);
    SearchAt(r, s, i, [Span(i, e)]);
  }

  /** The nmcli search reports the digit/dot run from `i` to `e` when an
      `M` follows it and no digit or dot stands before `i`. */
  lemma NmcliAt(s: string, i: nat, e: nat)
    requires i <= |s| && forall k | 0 <= k < i :: !Decimal.IsRateChar(s[k])
    requires RunEnd(s, i, DigitOrDot, false) == e && i < e
    requires LitAt(s, e, "M", false)
    ensures SearchGroup(NmcliRate, s) == Some(s[i..e])
  {
    var p := NmcliRate.pattern;
    assert Scan(p.tail, s, e, false) == Some([]);
    assert [Span(i, e)] + [] == [Span(i, e)];
    assert Scan(p, s, i, false) == Some([Span(i, e)]);
    PatternsWellFormed();
    MatchIsScan(p, s, i, false);
    NoGroupBefore(NmcliRate, s, i);
    SearchAt(NmcliRate, s, i, [Span(i, e)]);
  }

  /** `Transmit rate (Mbps) : 54`, in the parts `WindowsTransmitWins`
      takes. */
  const TransmitNetsh := TransmitLabel + " " + ":" + " " + "54" + ""

  lemma TransmitNetshAvoids()
    ensures Avoids(TransmitNetsh, 'v', true)
  {
  }

  /** With no receive-rate field, the transmit-rate field is read. */
  lemma TransmitSampleReading()
    ensures ParseWindowsNetsh(TransmitNetsh) == Success(Some(54.0))
  {
    TransmitNetshAvoids();
    NoReceiveRate(TransmitNetsh);
    WindowsTransmitWins(TransmitLabel, " ", " ", "54", "");
    DecimalOfDigits("54", 54);
  }

  /** A netsh line with neither field, only a bare `54 Mbps`. */
  const BareNetsh := "54 Mbps"

  lemma BareNetshFacts()
    ensures Avoids(BareNetsh, 'v', true) && Avoids(BareNetsh, 'T', true)
    ensures RunEnd(BareNetsh, 0, DigitOrDot, true) == 2
    ensures RunEnd(BareNetsh, 2, Space, true) == 3
    ensures LitAt(BareNetsh, 3, "Mbps", true)
    ensures BareNetsh[0..2] == "54"
  {
    RunEndIs(BareNetsh, 0, 2, DigitOrDot, true);
    RunEndIs(BareNetsh, 2, 3, Space, true);
  }

  lemma BareNetshGroup()
    ensures !Occurs(ReceiveRate, BareNetsh) && !Occurs(TransmitRate, BareNetsh)
    ensures SearchGroup(BareMbps, BareNetsh) == Some("54")
  {
    BareNetshFacts();
    NoReceiveRate(BareNetsh);
    NoTransmitRate(BareNetsh);
    PatternsWellFormed();
    UnitAt(BareMbps, "Mbps", BareNetsh, 0, 2, 3);
  }

  /** With neither field, the bare `<n> Mbps` token is read. */
  lemma BareSampleReading()
    ensures ParseWindowsNetsh(BareNetsh) == Success(Some(54.0))
  {
    BareNetshGroup();
    WindowsBareDecides(BareNetsh, "54");
    DecimalOfDigits("54", 54);
  }

  /** An nmcli line for the active network, with the rate written
      directly before its `M`. */
  const NmcliSample := "yes:HomeNet:130M"

  lemma NmcliSampleFacts()
    ensures forall k | 0 <= k < 12 :: !Decimal.IsRateChar(NmcliSample[k])
    ensures RunEnd(NmcliSample, 12, DigitOrDot, false) == 15
    ensures LitAt(NmcliSample, 15, "M", false)
    ensures NmcliSample[12..15] == "130"
  {
    RunEndIs(NmcliSample, 12, 15, DigitOrDot, false);
  }

  /** The nmcli step reads the run before the `M`, past the SSID. */
  lemma NmcliSampleReading()
    ensures NmcliReading(NmcliSample) == Success(Some(130.0))
  {
    assert SearchGroup(NmcliRate, NmcliSample) == Some("130") by {
      NmcliSampleFacts();
      NmcliAt(NmcliSample, 12, 15);
    }
    NmcliHead(NmcliSample, "130");
    DecimalOfDigits("130", 130);
  }

  /** airport output with no `lastTxRate:` field but an `<n> Mb/s`
      token. */
  const AirportRateSample := "rate: 866 Mb/s"

  lemma AirportRateFacts()
    ensures forall k | 0 <= k < |AirportRateSample| :: AirportRateSample[k] != 'T'
    ensures forall k | 0 <= k < 6 :: !Decimal.IsRateChar(AirportRateSample[k])
    ensures RunEnd(AirportRateSample, 6, DigitOrDot, false) == 9
    ensures RunEnd(AirportRateSample, 9, Space, false) == 10
    ensures LitAt(AirportRateSample, 10, "Mb/s", false)
    ensures AirportRateSample[6..9] == "866"
  {
    RunEndIs(AirportRateSample, 6, 9, DigitOrDot, false);
    RunEndIs(AirportRateSample, 9, 10, Space, false);
  }

  lemma AirportRateGroup()
    ensures !Occurs(LastTxRate, AirportRateSample)
    ensures SearchGroup(MbPerSec, AirportRateSample) == Some("866")
  {
    AirportRateFacts();
    NoLastTxRate(AirportRateSample);
    PatternsWellFormed();
    UnitAt(MbPerSec, "Mb/s", AirportRateSample, 6, 9, 10);
  }

  /** Without a `lastTxRate:` field, the `<n> Mb/s` token is read. */
  lemma AirportRateSampleReading()
    ensures ParseMacosAirport(AirportRateSample) == Success(Some(866.0))
  {
    AirportRateGroup();
    MacosMbPerSecDecides(AirportRateSample, "866");
    DecimalOfDigits("866", 866);
  }
}

=== FILE: pyjson.dfy ===
/** The values `json.loads` produces and the few Python operations the
    result normaliser applies to them: truthiness, `dict.get` with a
    default, the short-circuit `or`, indexing and `float()`. Numbers are
    exact reals; an integer and a float of the same value are one value. */
module PyJson {
  import opened Wrappers
  import opened Text
  import Decimal

  datatype Value =
    | Null                               // None
    | Bool(b: bool)
    | Num(n: real)
    | Str(s: string)
    | Array(items: seq<Value>)
    | Object(fields: map<string, Value>)

  /** Python truthiness: `None`, `False`, zero and empty containers are
      false. */
  predicate Truthy(v: Value) {
    match v
    case Null => false
    case Bool(b) => b
    case Num(n) => n != 0.0
    case Str(s) => s != []
    case Array(items) => items != []
    case Object(fields) => |fields| > 0
  }

  /** `d.get(key, default)`; `d.get(key)` is the default `Null`. A key
      present with the value `null` yields `Null`, not the default. */
  function Get(fields: map<string, Value>, key: string, default: Value := Null): Value {
    if key in fields then fields[key] else default
  }

  /** `a or b`: the first operand when it is truthy, otherwise the second. */
  function Or(a: Value, b: Value): (r: Value)
    ensures Truthy(r) <==> Truthy(a) || Truthy(b)
    ensures r == a || r == b
  {
    if Truthy(a) then a else b
  }

  /** `v[key]`: `None` stands for the `KeyError` or `TypeError` Python
      raises when `v` is not an object holding `key`. */
  function Index(v: Value, key: string): (r: Option<Value>)
    ensures r.Some? <==> v.Object? && key in v.fields
    ensures r.Some? ==> Truthy(v)
  {
    if v.Object? && key in v.fields then Some(v.fields[key]) else None
  }

  /** A sign-free decimal token preceded by at most one sign. */
  predicate SignedDecimal(t: string) {
    exists k | 0 <= k <= 1 && k <= |t| ::
      (k == 0 || t[0] == '+' || t[0] == '-') && Decimal.IsDecimal(t[k..])
  }

  /** `float(s)` on a string: surrounding whitespace is ignored and one
      sign is allowed. */
  function FloatOfString(s: string): (r: Option<real>)
    ensures r.Some? <==> SignedDecimal(Strip(s))
    ensures r.Some? && r.value < 0.0 ==> Strip(s)[0] == '-'
  {
    var t := Strip(s);
    if |t| > 0 && (t[0] == '+' || t[0] == '-') then
      assert !Decimal.IsDecimal(t[0..]) by {
        assert !Decimal.IsRateChar(t[0..][0]);
      }
      match Decimal.ParseDecimal(t[1..])
      case Some(x) => Some(if t[0] == '-' then -x else x)
      case None => None
    else
      assert t[0..] == t;
      Decimal.ParseDecimal(t)
  }

  /** `float(v)`; `None` stands for the exception. */
  function ToFloat(v: Value): (r: Option<real>)
    ensures r.Some? ==> v.Bool? || v.Num? || v.Str?
    ensures v.Num? ==> r == Some(v.n)
    ensures v.Bool? ==> r == Some(if v.b then 1.0 else 0.0)
    ensures v.Str? ==> r == FloatOfString(v.s)
  {
    match v
    case Null => None
    case Bool(b) => Some(if b then 1.0 else 0.0)
    case Num(n) => Some(n)
    case Str(s) => FloatOfString(s)
    case Array(_) => None
    case Object(_) => None
  }

  /** `float(str(n))`, whatever whitespace surrounds the digits. */
  lemma FloatOfShownNat(lead: string, n: nat, trail: string)
    requires AllSpace(lead) && AllSpace(trail)
    ensures FloatOfString(lead + Decimal.ShowNat(n) + trail) == Some(n as real)
  {
    var ds := Decimal.ShowNat(n);
    Decimal.ParseShowNat(n);
    assert IsDigit(ds[0]) && IsDigit(ds[|ds| - 1]);
    StripUnique(lead, ds, trail);
  }

  /** `float(s)` of a string whose stripped text is `-` and a decimal. */
  lemma NegativeString(s: string, x: real)
    requires |Strip(s)| > 0 && Strip(s)[0] == '-'
    requires Decimal.ParseDecimal(Strip(s)[1..]) == Some(x)
    ensures FloatOfString(s) == Some(-x)
  {
  }

  /** `float("-" + str(n))`, whatever whitespace surrounds it. */
  lemma FloatOfNegatedNat(lead: string, n: nat, trail: string)
    requires AllSpace(lead) && AllSpace(trail)
    ensures FloatOfString(lead + ("-" + Decimal.ShowNat(n)) + trail) == Some(-(n as real))
  {
    var ds := Decimal.ShowNat(n);
    var neg := "-" + ds;
    var s := lead + neg + trail;
    assert Strip(s) == neg by {
      assert neg[|neg| - 1] == ds[|ds| - 1];
      StripUnique(lead, neg, trail);
    }
    assert Decimal.ParseDecimal(neg[1..]) == Some(n as real) by {
      assert neg[1..] == ds;
      Decimal.ParseShowNat(n);
    }
    NegativeString(s, n as real);
  }

  /** `float(s)` of a string whose stripped text is `+` and a decimal. */
  lemma PositiveString(s: string, x: real)
    requires |Strip(s)| > 0 && Strip(s)[0] == '+'
    requires Decimal.ParseDecimal(Strip(s)[1..]) == Some(x)
    ensures FloatOfString(s) == Some(x)
  {
  }

  /** `float(s)` of a string whose stripped text is an unsigned decimal. */
  lemma UnsignedString(s: string, x: real)
    requires Decimal.ParseDecimal(Strip(s)) == Some(x)
    ensures FloatOfString(s) == Some(x)
  {
    var t := Strip(s);
    assert Decimal.IsRateChar(t[0]);
  }

  /** `float()` of a string that strips to an optionally signed token. */
  lemma SignedToken(s: string, sign: string, tok: string, v: real)
    requires sign == "" || sign == "+" || sign == "-"
    requires Strip(s) == sign + tok
    requires Decimal.ParseDecimal(tok) == Some(v)
    ensures FloatOfString(s) == Some(if sign == "-" then -v else v)
  {
    var t := Strip(s);
    if sign == "" {
      assert t == tok;
      UnsignedString(s, v);
    } else {
      assert t[0] == sign[0] && t[1..] == tok;
      if sign == "-" {
        NegativeString(s, v);
      } else {
        PositiveString(s, v);
      }
    }
  }

  /** `float()` of an optionally signed token, whatever whitespace
      surrounds it: the token's decimal value, negated after a `-`. */
  lemma FloatOfSigned(lead: string, sign: string, tok: string, trail: string, v: real)
    requires AllSpace(lead) && AllSpace(trail)
    requires sign == "" || sign == "+" || sign == "-"
    requires Decimal.ParseDecimal(tok) == Some(v)
    ensures FloatOfString(lead + (sign + tok) + trail) == Some(if sign == "-" then -v else v)
  {
    var r := sign + tok;
    assert Decimal.IsRateChar(tok[0]) && Decimal.IsRateChar(tok[|tok| - 1]);
    assert r[|r| - 1] == tok[|tok| - 1];
    assert r[0] == (if sign == "" then tok[0] else sign[0]);
    StripUnique(lead, r, trail);
    SignedToken(lead + r + trail, sign, tok, v);
  }

  /** Signed fractions, padded or not: `float(" +144.4\n") == 144.4` and
      `float("-144.4") == -144.4`. */
  lemma SignedFractionExamples()
    ensures FloatOfString(" " + ("+" + "144.4") + "\n") == Some(144.4)
    ensures FloatOfString("" + ("-" + "144.4") + "") == Some(-144.4)
  {
    Decimal.ParseFractionExample();
    FloatOfSigned(" ", "+", "144.4", "\n", 144.4);
    FloatOfSigned("", "-", "144.4", "", 144.4);
  }
}

=== FILE: regex.dfy ===
/** The fragment of Python's `re` that the link-rate parsers use: literals,
    one-character classes, and the greedy quantifiers `?`, `*` and `+`
    (the last one always inside a capturing group), with an optional
    IGNORECASE flag.

    `Match` is the reference semantics: a backtracking matcher that tries
    alternatives in Python's priority order (a greedy repeat tries its
    longest run first, `?` tries one character before none). `Scan` is a
    matcher that never backtracks. `MatchIsScan` proves that the two agree
    on every well-formed pattern, where each repeated class is disjoint from
    whatever can follow it. `Search` is `re.search`: the match at the
    leftmost position where one exists. */
module Regex {
  import opened Wrappers
  import opened Text
  import Decimal

  datatype CharClass = Space | DigitOrDot | AnyOf(chars: string)

  datatype Elem =
    | Lit(text: string)        // a literal string
    | One(cls: CharClass)      // [..]
    | Opt(cls: CharClass)      // [..]?
    | Star(cls: CharClass)     // [..]*
    | Group(cls: CharClass)    // ([..]+)

  datatype Pattern = End | Then(head: Elem, tail: Pattern)

  datatype Regex = Regex(pattern: Pattern, ignoreCase: bool)

  /** The text `s[lo..hi]` captured by a group. */
  datatype Span = Span(lo: nat, hi: nat)

  /** A successful search: where the match starts and what its groups hold. */
  datatype Found = Found(start: nat, groups: seq<Span>)

  /** Subject character `c` against pattern character `pc`. */
  predicate CharEq(c: char, pc: char, ci: bool) {
    if ci then Fold(c) == Fold(pc) else c == pc
  }

  predicate InClass(c: char, cls: CharClass, ci: bool) {
    match cls
    case Space => IsSpace(c)
    case DigitOrDot => Decimal.IsRateChar(c)
    case AnyOf(cs) => exists k | 0 <= k < |cs| :: CharEq(c, cs[k], ci)
  }

  predicate LitAt(s: string, i: nat, w: string, ci: bool) {
    i + |w| <= |s| && forall k | 0 <= k < |w| :: CharEq(s[i + k], w[k], ci)
  }

  /** End of the longest run of `cls` characters starting at `i`. */
  function RunEnd(s: string, i: nat, cls: CharClass, ci: bool): (j: nat)
    requires i <= |s|
    ensures i <= j <= |s|
    ensures forall k | i <= k < j :: InClass(s[k], cls, ci)
    ensures j < |s| ==> !InClass(s[j], cls, ci)
    decreases |s| - i
  {
    if i < |s| && InClass(s[i], cls, ci) then RunEnd(s, i + 1, cls, ci) else i
  }

  function Groups(p: Pattern): nat {
    match p
    case End => 0
    case Then(e, t) => (if e.Group? then 1 else 0) + Groups(t)
  }

  predicate ValidSpans(g: seq<Span>, s: string) {
    forall k | 0 <= k < |g| :: g[k].lo <= g[k].hi <= |s|
  }

  /** Python's backtracking match of `p` anchored at `i`; the result lists
      the spans of the groups, in order. */
  function Match(p: Pattern, s: string, i: nat, ci: bool): (r: Option<seq<Span>>)
    requires i <= |s|
    ensures r.Some? ==> |r.value| == Groups(p) && ValidSpans(r.value, s)
    decreases p, 1, 0
  {
    match p
    case End => Some([])
    case Then(e, rest) =>
      match e
      case Lit(w) =>
        if LitAt(s, i, w, ci) then Match(rest, s, i + |w|, ci) else None
      case One(c) =>
        if i < |s| && InClass(s[i], c, ci) then Match(rest, s, i + 1, ci) else None
      case Opt(c) =>
        if i < |s| && InClass(s[i], c, ci) && Match(rest, s, i + 1, ci).Some?
        then Match(rest, s, i + 1, ci)
        else Match(rest, s, i, ci)
      case Star(c) =>
        Backtrack(p, s, i, i, RunEnd(s, i, c, ci), ci)
      case Group(c) =>
        var k := RunEnd(s, i, c, ci);
        if k == i then None else Backtrack(p, s, i, i + 1, k, ci)
  }

  /** A greedy repeat at the head of `p` that started at `start`: try the
      rest of the pattern after `k`, `k - 1`, ... down to `floor`
      repetitions' end, and take the first that succeeds. */
  function Backtrack(p: Pattern, s: string, start: nat, floor: nat, k: nat, ci: bool)
    : (r: Option<seq<Span>>)
    requires p.Then? && (p.head.Star? || p.head.Group?)
    requires start <= floor <= k <= |s|
    ensures r.Some? ==> |r.value| == Groups(p) && ValidSpans(r.value, s)
    decreases p, 0, k
  {
    match Match(p.tail, s, k, ci)
    case Some(g) =>
      Some(if p.head.Group? then [Span(start, k)] + g else g)
    case None =>
      if k == floor then None else Backtrack(p, s, start, floor, k - 1, ci)
  }

  /** Matching without backtracking: every repeat takes its longest run. */
  function Scan(p: Pattern, s: string, i: nat, ci: bool): (r: Option<seq<Span>>)
    requires i <= |s|
    ensures r.Some? ==> |r.value| == Groups(p) && ValidSpans(r.value, s)
  {
    match p
    case End => Some([])
    case Then(e, rest) =>
      match e
      case Lit(w) =>
        if LitAt(s, i, w, ci) then Scan(rest, s, i + |w|, ci) else None
      case One(c) =>
        if i < |s| && InClass(s[i], c, ci) then Scan(rest, s, i + 1, ci) else None
      case Opt(c) =>
        if i < |s| && InClass(s[i], c, ci) then Scan(rest, s, i + 1, ci) else Scan(rest, s, i, ci)
      case Star(c) =>
        Scan(rest, s, RunEnd(s, i, c, ci), ci)
      case Group(c) =>
        var k := RunEnd(s, i, c, ci);
        if k == i then None
        else
          match Scan(rest, s, k, ci)
          case Some(g) => Some([Span(i, k)] + g)
          case None => None
  }

  /** `p` can match the empty string. */
  predicate Nullable(p: Pattern) {
    p.End? || ((p.head.Opt? || p.head.Star?) && Nullable(p.tail))
  }

  /** `c` may be the first character a match of `p` consumes. */
  predicate MayLead(p: Pattern, c: char, ci: bool) {
    p.Then? &&
    match p.head
    case Lit(w) => |w| > 0 && CharEq(c, w[0], ci)
    case One(cls) => InClass(c, cls, ci)
    case Group(cls) => InClass(c, cls, ci)
    case Opt(cls) => InClass(c, cls, ci) || MayLead(p.tail, c, ci)
    case Star(cls) => InClass(c, cls, ci) || MayLead(p.tail, c, ci)
  }

  /** A repeat of `cls` followed by `rest` never has to give characters back. */
  predicate CannotFollow(cls: CharClass, rest: Pattern, ci: bool) {
    Nullable(rest) || forall c: char :: MayLead(rest, c, ci) ==> !InClass(c, cls, ci)
  }

  predicate WellFormed(p: Pattern, ci: bool) {
    p.End? ||
    (&& (match p.head
         case Lit(w) => |w| > 0
         case One(_) => true
         case Opt(cls) => CannotFollow(cls, p.tail, ci)
         case Star(cls) => CannotFollow(cls, p.tail, ci)
         case Group(cls) => CannotFollow(cls, p.tail, ci))
     && WellFormed(p.tail, ci))
  }

  lemma NullableScan(p: Pattern, s: string, i: nat, ci: bool)
    requires Nullable(p) && i <= |s|
    ensures Scan(p, s, i, ci).Some?
  {
    if p.Then? {
      if p.head.Opt? {
        NullableScan(p.tail, s, i, ci);
        if i < |s| {
          NullableScan(p.tail, s, i + 1, ci);
        }
      } else {
        NullableScan(p.tail, s, RunEnd(s, i, p.head.cls, ci), ci);
      }
    }
  }

  /** A successful scan of a pattern that cannot match empty starts with a
      character the pattern may lead with. */
  lemma ScanLead(p: Pattern, s: string, j: nat, ci: bool)
    requires WellFormed(p, ci) && j <= |s| && !Nullable(p)
    requires Scan(p, s, j, ci).Some?
    ensures j < |s| && MayLead(p, s[j], ci)
  {
    match p.head
    case Lit(w) =>
      assert CharEq(s[j + 0], w[0], ci);
    case One(c) =>
    case Group(c) =>
    case Opt(c) =>
      if !(j < |s| && InClass(s[j], c, ci)) {
        ScanLead(p.tail, s, j, ci);
      }
    case Star(c) =>
      if RunEnd(s, j, c, ci) == j {
        ScanLead(p.tail, s, j, ci);
      }
  }

  lemma BacktrackNone(p: Pattern, s: string, start: nat, floor: nat, k: nat, ci: bool)
    requires p.Then? && (p.head.Star? || p.head.Group?)
    requires start <= floor <= k <= |s|
    requires forall j | floor <= j <= k :: Match(p.tail, s, j, ci).None?
    ensures Backtrack(p, s, start, floor, k, ci).None?
    decreases k
  {
    if k > floor {
      BacktrackNone(p, s, start, floor, k - 1, ci);
    }
  }

  /** On a repeat of `cls` that `rest` cannot follow, every shorter run
      leaves the rest of the pattern without a match. */
  lemma ShorterRunsFail(cls: CharClass, rest: Pattern, s: string, i: nat, ci: bool)
    requires WellFormed(rest, ci) && CannotFollow(cls, rest, ci) && i <= |s|
    requires Scan(rest, s, RunEnd(s, i, cls, ci), ci).None?
    requires forall j | i <= j <= RunEnd(s, i, cls, ci) :: Match(rest, s, j, ci) == Scan(rest, s, j, ci)
    ensures forall j | i <= j <= RunEnd(s, i, cls, ci) :: Match(rest, s, j, ci).None?
  {
    var e := RunEnd(s, i, cls, ci);
    forall j | i <= j <= e
      ensures Match(rest, s, j, ci).None?
    {
      if Scan(rest, s, j, ci).Some? {
        if Nullable(rest) {
          NullableScan(rest, s, e, ci);
        } else {
          ScanLead(rest, s, j, ci);
        }
        assert false;
      }
    }
  }

  /** Backtracking never changes the outcome of a well-formed pattern: the
      match Python finds is the one the longest runs give. */
  lemma MatchIsScan(p: Pattern, s: string, i: nat, ci: bool)
    requires WellFormed(p, ci) && i <= |s|
    ensures Match(p, s, i, ci) == Scan(p, s, i, ci)
    decreases p
  {
    match p
    case End =>
    case Then(e, rest) =>
      match e
      case Lit(w) =>
        if LitAt(s, i, w, ci) {
          MatchIsScan(rest, s, i + |w|, ci);
        }
      case One(c) =>
        if i < |s| && InClass(s[i], c, ci) {
          MatchIsScan(rest, s, i + 1, ci);
        }
      case Opt(c) =>
        MatchIsScan(rest, s, i, ci);
        if i < |s| && InClass(s[i], c, ci) {
          MatchIsScan(rest, s, i + 1, ci);
          if Scan(rest, s, i + 1, ci).None? && Scan(rest, s, i, ci).Some? {
            if Nullable(rest) {
              NullableScan(rest, s, i + 1, ci);
            } else {
              ScanLead(rest, s, i, ci);
            }
            assert false;
          }
        }
      case Star(c) =>
        var k := RunEnd(s, i, c, ci);
        forall j | i <= j <= k
          ensures Match(rest, s, j, ci) == Scan(rest, s, j, ci)
        {
          MatchIsScan(rest, s, j, ci);
        }
        if Scan(rest, s, k, ci).None? {
          ShorterRunsFail(c, rest, s, i, ci);
          BacktrackNone(p, s, i, i, k, ci);
        }
      case Group(c) =>
        var k := RunEnd(s, i, c, ci);
        if k > i {
          forall j | i <= j <= k
            ensures Match(rest, s, j, ci) == Scan(rest, s, j, ci)
          {
            MatchIsScan(rest, s, j, ci);
          }
          if Scan(rest, s, k, ci).None? {
            ShorterRunsFail(c, rest, s, i, ci);
            BacktrackNone(p, s, i, i + 1, k, ci);
          }
        }
  }

  /** Some position of `s` starts a match of `r`. */
  ghost predicate Occurs(r: Regex, s: string) {
    exists i | 0 <= i <= |s| :: Match(r.pattern, s, i, r.ignoreCase).Some?
  }

  /** The first match at or after position `i`. */
  function SearchFrom(r: Regex, s: string, i: nat): (m: Option<Found>)
    requires i <= |s|
    ensures m.Some? ==> i <= m.value.start <= |s|
                        && Match(r.pattern, s, m.value.start, r.ignoreCase) == Some(m.value.groups)
    ensures m.Some? ==> forall j | i <= j < m.value.start :: Match(r.pattern, s, j, r.ignoreCase).None?
    ensures m.None? ==> forall j | i <= j <= |s| :: Match(r.pattern, s, j, r.ignoreCase).None?
    decreases |s| - i
  {
    match Match(r.pattern, s, i, r.ignoreCase)
    case Some(g) => Some(Found(i, g))
    case None => if i == |s| then None else SearchFrom(r, s, i + 1)
  }

  /** `re.search(r, s)`: the leftmost match, if any. */
  function Search(r: Regex, s: string): (m: Option<Found>)
    ensures m.None? <==> !Occurs(r, s)
    ensures m.Some? ==> m.value.start <= |s|
                        && Match(r.pattern, s, m.value.start, r.ignoreCase) == Some(m.value.groups)
                        && forall j | 0 <= j < m.value.start :: Match(r.pattern, s, j, r.ignoreCase).None?
  {
    SearchFrom(r, s, 0)
  }

  /** `m.group(1)` of `re.search(r, s)`, or `None` when nothing matches. */
  function SearchGroup(r: Regex, s: string): (m: Option<string>)
    requires Groups(r.pattern) >= 1
    ensures m.Some? <==> Occurs(r, s)
  {
    match Search(r, s)
    case None => None
    case Some(f) => Some(s[f.groups[0].lo..f.groups[0].hi])
  }

  lemma RunEndStep(s: string, i: nat, cls: CharClass, ci: bool)
    requires i < |s| && InClass(s[i], cls, ci)
    ensures RunEnd(s, i, cls, ci) == RunEnd(s, i + 1, cls, ci)
  {
  }

  /** The longest run is determined by where the class first fails. */
  lemma RunEndIs(s: string, i: nat, j: nat, cls: CharClass, ci: bool)
    requires i <= j <= |s|
    requires forall k | i <= k < j :: InClass(s[k], cls, ci)
    requires j == |s| || !InClass(s[j], cls, ci)
    ensures RunEnd(s, i, cls, ci) == j
  {
  }

  /** A match of a pattern opening with `([cls]+)` also matches one
      position earlier when the character there belongs to `cls`. */
  lemma GroupExtendsLeft(p: Pattern, s: string, j: nat, ci: bool)
    requires WellFormed(p, ci) && p.Then? && p.head.Group?
    requires j < |s| && InClass(s[j], p.head.cls, ci)
    requires Scan(p, s, j + 1, ci).Some?
    ensures Match(p, s, j, ci).Some?
  {
    RunEndStep(s, j, p.head.cls, ci);
    MatchIsScan(p, s, j, ci);
  }

  /** A match of a pattern opening with `([cls]+)` captures the longest
      run of `cls` at its start. */
  lemma GroupSpan(p: Pattern, s: string, i: nat, g: seq<Span>, ci: bool)
    requires WellFormed(p, ci) && p.Then? && p.head.Group?
    requires i <= |s| && Match(p, s, i, ci) == Some(g)
    ensures i < |s| && |g| > 0 && g[0] == Span(i, RunEnd(s, i, p.head.cls, ci))
  {
    MatchIsScan(p, s, i, ci);
    var e := RunEnd(s, i, p.head.cls, ci);
    assert e > i;
    var tailScan := Scan(p.tail, s, e, ci);
    assert tailScan.Some? && g == [Span(i, e)] + tailScan.value;
  }

  /** Such a match that does not also start one position earlier is not
      preceded by a character of `cls`. */
  lemma GroupStartsRun(p: Pattern, s: string, i: nat, ci: bool)
    requires WellFormed(p, ci) && p.Then? && p.head.Group?
    requires 0 < i <= |s| && Match(p, s, i, ci).Some? && Match(p, s, i - 1, ci).None?
    ensures !InClass(s[i - 1], p.head.cls, ci)
  {
    if InClass(s[i - 1], p.head.cls, ci) {
      MatchIsScan(p, s, i, ci);
      GroupExtendsLeft(p, s, i - 1, ci);
      assert false;
    }
  }

  /** A pattern that opens with `([cls]+)` captures, at its leftmost match,
      a maximal run of `cls`: one that starts the text or follows a
      character outside the class, and extends as far as the class does. */
  lemma LeadingGroupIsMaximalRun(r: Regex, s: string, f: Found)
    requires WellFormed(r.pattern, r.ignoreCase)
    requires r.pattern.Then? && r.pattern.head.Group?
    requires Search(r, s) == Some(f)
    ensures f.start < |s|
    ensures f.groups[0] == Span(f.start, RunEnd(s, f.start, r.pattern.head.cls, r.ignoreCase))
    ensures f.start == 0 || !InClass(s[f.start - 1], r.pattern.head.cls, r.ignoreCase)
  {
    GroupSpan(r.pattern, s, f.start, f.groups, r.ignoreCase);
    if f.start > 0 {
      GroupStartsRun(r.pattern, s, f.start, r.ignoreCase);
    }
  }

  /** A leftmost match at position 0 is the one `re.search` reports. */
  lemma SearchAtStart(r: Regex, s: string, g: seq<Span>)
    requires Match(r.pattern, s, 0, r.ignoreCase) == Some(g)
    ensures Search(r, s) == Some(Found(0, g))
  {
  }

  /** A match at `i` with none before it is the one `re.search` reports. */
  lemma SearchAt(r: Regex, s: string, i: nat, g: seq<Span>)
    requires i <= |s| && Match(r.pattern, s, i, r.ignoreCase) == Some(g)
    requires forall j | 0 <= j < i :: Match(r.pattern, s, j, r.ignoreCase).None?
    ensures Search(r, s) == Some(Found(i, g))
  {
  }

  /** A pattern that starts with a literal cannot match where the
      literal does not occur. */
  lemma LitAbsent(r: Regex, s: string, j: nat)
    requires r.pattern.Then? && r.pattern.head.Lit?
    requires j <= |s| && !LitAt(s, j, r.pattern.head.text, r.ignoreCase)
    ensures Match(r.pattern, s, j, r.ignoreCase).None?
  {
  }

  /** A pattern that opens with a literal does not match where the
      literal's first character is absent. */
  lemma LitMiss(r: Regex, s: string, j: nat)
    requires r.pattern.Then? && r.pattern.head.Lit? && |r.pattern.head.text| > 0
    requires j < |s| && !CharEq(s[j], r.pattern.head.text[0], r.ignoreCase)
    ensures Match(r.pattern, s, j, r.ignoreCase).None?
  {
    assert !LitAt(s, j, r.pattern.head.text, r.ignoreCase) by {
      assert s[j + 0] == s[j];
    }
  }
}

=== FILE: speedtest.dfy ===
/** The command-line fallback of `run_speedtest`: the normalisation of the
    JSON a speed-test CLI prints into download, upload and ping, and the
    loop over three argument variants in which the first complete result
    wins. Running the program, `json.loads` and `shutil.which` are
    parameters. */
module SpeedTest {
  import opened Wrappers
  import opened Text
  import opened PyJson

  /** The result record of `run_speedtest` without its timestamp. */
  datatype Measurement = Measurement(downloadBps: real, uploadBps: real, pingMs: real)

  /** The ping expression: `data.get('ping')`, else the server's `ping`,
      else `float(data.get('latency', 0))`. `None` stands for the
      exception raised when `server` is present but not an object, or when
      `float()` rejects the latency. */
  function PingOf(data: map<string, Value>): Option<Value> {
    var top := Get(data, "ping");
    if Truthy(top) then Some(top)
    else
      var server := Get(data, "server", Object(map[]));
      if !server.Object? then None
      else
        var nested := Get(server.fields, "ping");
        if Truthy(nested) then Some(nested)
        else
          match ToFloat(Get(data, "latency", Num(0.0)))
          case Some(x) => Some(Num(x))
          case None => None
  }

  /** `data.get('download') or data.get('bytes_sent', None) or
      data.get('downloadBytes', None)` */
  function DownloadOf(data: map<string, Value>): Value {
    Or(Or(Get(data, "download"), Get(data, "bytes_sent")), Get(data, "downloadBytes"))
  }

  /** `data.get('upload') or data.get('bytes_received', None) or
      data.get('uploadBytes', None)` */
  function UploadOf(data: map<string, Value>): Value {
    Or(Or(Get(data, "upload"), Get(data, "bytes_received")), Get(data, "uploadBytes"))
  }

  /** `float(data[key]['bandwidth']) * 8`, or `None` for the exception. */
  function Bandwidth(data: map<string, Value>, key: string): Option<real> {
    match Index(Object(data), key)
    case None => None
    case Some(v) =>
      match Index(v, "bandwidth")
      case None => None
      case Some(b) =>
        match ToFloat(b)
        case None => None
        case Some(x) => Some(x * 8.0)
  }

  /** The `try` block of the nested-structure branch: `dl` is assigned
      before `ul` is computed, so when only the upload side raises, the new
      `dl` survives the `except: pass`. */
  function NestedBranch(data: map<string, Value>, dl: Value, ul: Value): (Value, Value) {
    match Bandwidth(data, "download")
    case None => (dl, ul)
    case Some(d) =>
      match Bandwidth(data, "upload")
      case None => (Num(d), ul)
      case Some(u) => (Num(d), Num(u))
  }

  /** `float(dl)`, `float(ul)` and `float(ping)` all succeed. */
  function Measure(dl: Value, ul: Value, ping: Value): (r: Option<Measurement>)
    ensures r.Some? <==> ToFloat(dl).Some? && ToFloat(ul).Some? && ToFloat(ping).Some?
    ensures r.Some? ==> r.value == Measurement(ToFloat(dl).value, ToFloat(ul).value, ToFloat(ping).value)
  {
    match (ToFloat(dl), ToFloat(ul), ToFloat(ping))
    case (Some(d), Some(u), Some(p)) => Some(Measurement(d, u, p))
    case _ => None
  }

  /** The normalisation of one parsed CLI document, as written: the nested
      branch is taken when `dl` or `ul` is `None`. `None` stands for any
      exception, which makes the attempt fail. Whatever the document, a
      result comes from the top-level lookups alone: the nested branch
      never contributes one. */
  function Normalise(v: Value): (r: Option<Measurement>)
    ensures r.Some? ==> v.Object? && PingOf(v.fields).Some?
    ensures v.Object? && PingOf(v.fields).Some? ==>
              r == Measure(DownloadOf(v.fields), UploadOf(v.fields), PingOf(v.fields).value)
  {
    if !v.Object? then None
    else
      var data := v.fields;
      match PingOf(data)
      case None => None
      case Some(ping) =>
        var dl0 := DownloadOf(data);
        var ul0 := UploadOf(data);
        if dl0 == Null || ul0 == Null then
          NestedBandwidthUnused(data, ping);
          var (dl, ul) := NestedBranch(data, dl0, ul0);
          Measure(dl, ul, ping)
        else
          Measure(dl0, ul0, ping)
  }

  /** A falsy `data[key]` has no `bandwidth` to index. */
  lemma FalsyHasNoBandwidth(data: map<string, Value>, key: string)
    requires !Truthy(Get(data, key))
    ensures Bandwidth(data, key).None?
  {
  }

  /** Finding: when the `or` chain leaves `dl` (or `ul`) at `None`, the
      object it came from has no truthy `download` (or `upload`) member,
      so indexing its `bandwidth` raises, that side stays `None`, and
      `float(None)` fails the attempt. The branch meant for the nested
      `{"download": {"bandwidth": ...}}` shape can never produce a
      result. */
  lemma NestedBandwidthUnused(data: map<string, Value>, ping: Value)
    requires DownloadOf(data) == Null || UploadOf(data) == Null
    ensures var (dl, ul) := NestedBranch(data, DownloadOf(data), UploadOf(data));
            Measure(dl, ul, ping).None?
  {
    var dl0 := DownloadOf(data);
    var ul0 := UploadOf(data);
    if dl0 == Null {
      FalsyHasNoBandwidth(data, "download");
    } else {
      FalsyHasNoBandwidth(data, "upload");
    }
  }

  /** The corrected normalisation: the nested `bandwidth` fields (byte
      rates, hence the factor 8) are consulted whenever the top-level
      values are not numbers `float()` accepts, which covers the nested
      shape itself. */
  function NormaliseIntended(v: Value): (r: Option<Measurement>)
    ensures r.Some? ==> v.Object? && PingOf(v.fields).Some?
  {
    if !v.Object? then None
    else
      var data := v.fields;
      match PingOf(data)
      case None => None
      case Some(ping) =>
        var dl0 := DownloadOf(data);
        var ul0 := UploadOf(data);
        if ToFloat(dl0).None? || ToFloat(ul0).None? then
          var (dl, ul) := NestedBranch(data, dl0, ul0);
          Measure(dl, ul, ping)
        else
          Measure(dl0, ul0, ping)
  }

  /** The correction only turns failures into results: every document the
      code as written normalises comes out the same. */
  lemma IntendedExtends(v: Value)
    ensures Normalise(v).Some? ==> NormaliseIntended(v) == Normalise(v)
  {
  }

  /** A document holding only the nested byte rates yields eight times
      them under the corrected normalisation, and fails as written. */
  lemma NestedShape(data: map<string, Value>, down: real, up: real, ping: real)
    requires "download" in data && data["download"] == Object(map["bandwidth" := Num(down)])
    requires "upload" in data && data["upload"] == Object(map["bandwidth" := Num(up)])
    requires "ping" in data && data["ping"] == Num(ping) && ping != 0.0
    ensures NormaliseIntended(Object(data)) == Some(Measurement(down * 8.0, up * 8.0, ping))
    ensures Normalise(Object(data)) == None
  {
    assert Truthy(data["download"]) && Truthy(data["upload"]);
    assert DownloadOf(data) == data["download"];
    assert UploadOf(data) == data["upload"];
  }

  /** Any non-object document fails: `.get` does not exist on it. */
  lemma NonObjectFails(v: Value)
    requires !v.Object?
    ensures Normalise(v) == None && NormaliseIntended(v) == None
  {
  }

  /** Where the ping comes from: the top-level `ping` when truthy, else
      the server's when truthy, else `latency` converted with `float()`
      (which may raise), and 0 when none of the three is present; a
      `server` member that is not an object raises. */
  lemma PingSources(data: map<string, Value>)
    ensures Truthy(Get(data, "ping")) ==> PingOf(data) == Some(Get(data, "ping"))
    ensures !Truthy(Get(data, "ping")) && "server" in data && data["server"].Object?
            && Truthy(Get(data["server"].fields, "ping"))
            ==> PingOf(data) == Some(Get(data["server"].fields, "ping"))
    ensures !Truthy(Get(data, "ping")) && "server" in data && !data["server"].Object?
            ==> PingOf(data) == None
    ensures !Truthy(Get(data, "ping"))
            && ("server" !in data
                || (data["server"].Object? && !Truthy(Get(data["server"].fields, "ping"))))
            ==> var latency := ToFloat(Get(data, "latency", Num(0.0)));
                && (PingOf(data).Some? <==> latency.Some?)
                && (latency.Some? ==> PingOf(data) == Some(Num(latency.value)))
    ensures "ping" !in data && "server" !in data && "latency" !in data
            ==> PingOf(data) == Some(Num(0.0))
  {
  }

  /** A zero top-level ping with no server falls back to `latency`; an
      empty latency string makes `float()` raise. */
  lemma LatencyExamples()
    ensures PingOf(map["ping" := Num(0.0), "latency" := Num(23.0)]) == Some(Num(23.0))
    ensures PingOf(map["ping" := Null, "latency" := Str("")]) == None
  {
  }

  /** Where the download rate comes from: `download` when truthy, else
      `bytes_sent` when truthy, else `downloadBytes` whatever it holds
      (`None` when it is absent). */
  lemma DownloadSources(data: map<string, Value>)
    ensures Truthy(Get(data, "download")) ==> DownloadOf(data) == data["download"]
    ensures !Truthy(Get(data, "download")) && Truthy(Get(data, "bytes_sent"))
            ==> DownloadOf(data) == data["bytes_sent"]
    ensures !Truthy(Get(data, "download")) && !Truthy(Get(data, "bytes_sent"))
            ==> DownloadOf(data) == Get(data, "downloadBytes")
    ensures DownloadOf(data) == Null <==>
            !Truthy(Get(data, "download")) && !Truthy(Get(data, "bytes_sent"))
            && Get(data, "downloadBytes") == Null
  {
  }

  /** Where the upload rate comes from: `upload`, then `bytes_received`,
      then `uploadBytes`. */
  lemma UploadSources(data: map<string, Value>)
    ensures Truthy(Get(data, "upload")) ==> UploadOf(data) == data["upload"]
    ensures !Truthy(Get(data, "upload")) && Truthy(Get(data, "bytes_received"))
            ==> UploadOf(data) == data["bytes_received"]
    ensures !Truthy(Get(data, "upload")) && !Truthy(Get(data, "bytes_received"))
            ==> UploadOf(data) == Get(data, "uploadBytes")
    ensures UploadOf(data) == Null <==>
            !Truthy(Get(data, "upload")) && !Truthy(Get(data, "bytes_received"))
            && Get(data, "uploadBytes") == Null
  {
  }

  /** Top-level numeric `download`, `upload` and `ping` pass through
      unchanged. */
  lemma TopLevelFields(data: map<string, Value>, down: real, up: real, ping: real)
    requires "download" in data && data["download"] == Num(down) && down != 0.0
    requires "upload" in data && data["upload"] == Num(up) && up != 0.0
    requires "ping" in data && data["ping"] == Num(ping) && ping != 0.0
    ensures Normalise(Object(data)) == Some(Measurement(down, up, ping))
  {
    DownloadSources(data);
    UploadSources(data);
    PingSources(data);
  }

  /** A document with no ping field at all gets ping 0 rather than
      failing. */
  lemma NoPingFieldsGivesZero(data: map<string, Value>, down: real, up: real)
    requires "download" in data && data["download"] == Num(down) && down != 0.0
    requires "upload" in data && data["upload"] == Num(up) && up != 0.0
    requires "ping" !in data && "server" !in data && "latency" !in data
    ensures Normalise(Object(data)) == Some(Measurement(down, up, 0.0))
  {
    DownloadSources(data);
    UploadSources(data);
    PingSources(data);
  }

  /** A `download` that is itself an object is not `None`: the nested
      branch is skipped and `float()` of the object fails the attempt. */
  lemma ObjectDownloadFails(data: map<string, Value>)
    requires "download" in data && data["download"].Object? && |data["download"].fields| > 0
    ensures Normalise(Object(data)) == None
  {
    DownloadSources(data);
  }

  /** Only `None` triggers the nested branch: a zero rate in the last
      field of the chain is kept and reported as 0. */
  lemma ZeroRateAccepted(data: map<string, Value>, up: real, ping: real)
    requires "download" !in data && "bytes_sent" !in data
    requires "downloadBytes" in data && data["downloadBytes"] == Num(0.0)
    requires "upload" in data && data["upload"] == Num(up) && up != 0.0
    requires "ping" in data && data["ping"] == Num(ping) && ping != 0.0
    ensures Normalise(Object(data)) == Some(Measurement(0.0, up, ping))
  {
    DownloadSources(data);
    UploadSources(data);
    PingSources(data);
  }

  /** `{"ping": 12.3, "download": 54000000, "upload": 12000000}` */
  const FlatDocument := Object(map["ping" := Num(12.3), "download" := Num(54000000.0),
                                   "upload" := Num(12000000.0)])

  lemma FlatDocumentResult()
    ensures Normalise(FlatDocument) == Some(Measurement(54000000.0, 12000000.0, 12.3))
  {
    TopLevelFields(FlatDocument.fields, 54000000.0, 12000000.0, 12.3);
  }

  /** `{"download": {"bandwidth": 6750000}, "upload": {"bandwidth": 1500000},
      "ping": 8.0}`, the shape of the nested byte-rate output. */
  const NestedDocument := Object(map[
    "download" := Object(map["bandwidth" := Num(6750000.0)]),
    "upload" := Object(map["bandwidth" := Num(1500000.0)]),
    "ping" := Num(8.0)])

  /** As written, the nested document fails; corrected, it yields
      54000000 and 12000000 bit/s. */
  lemma NestedDocumentResult()
    ensures Normalise(NestedDocument) == None
    ensures NormaliseIntended(NestedDocument) == Some(Measurement(54000000.0, 12000000.0, 8.0))
  {
    NestedShape(NestedDocument.fields, 6750000.0, 1500000.0, 8.0);
  }
}

=== FILE: text.dfy ===
/** Character classes and string helpers, restricted to ASCII. */
module Text {

  predicate IsDigit(c: char) {
    '0' <= c <= '9'
  }

  /** Python's `\s` and `str.isspace()` on ASCII input: space, `\t`, `\n`,
      `\v`, `\f`, `\r` and the four separators `\x1c`..`\x1f`. */
  predicate IsSpace(c: char) {
    var n := c as int;
    n == 32 || 9 <= n <= 13 || 28 <= n <= 31
  }

  predicate AllSpace(s: string) {
    forall k | 0 <= k < |s| :: IsSpace(s[k])
  }

  predicate AllDigits(s: string) {
    forall k | 0 <= k < |s| :: IsDigit(s[k])
  }

  /** ASCII lower-casing, the case folding of a case-insensitive match. */
  function Fold(c: char): (r: char)
    ensures 'A' <= c <= 'Z' ==> 'a' <= r <= 'z' && r as int == c as int + 32
    ensures !('A' <= c <= 'Z') ==> r == c
  {
    if 'A' <= c <= 'Z' then (c as int + 32) as char else c
  }

  predicate StartsWith(s: string, prefix: string) {
    |prefix| <= |s| && s[..|prefix|] == prefix
  }

  /** Number of leading whitespace characters of `s`. */
  function LeadingSpace(s: string): (n: nat)
    ensures n <= |s|
    ensures forall k | 0 <= k < n :: IsSpace(s[k])
    ensures n < |s| ==> !IsSpace(s[n])
  {
    if |s| == 0 || !IsSpace(s[0]) then 0
    else
      var n := 1 + LeadingSpace(s[1..]);
      assert forall k | 1 <= k < n :: s[k] == s[1..][k - 1];
      n
  }

  /** Number of trailing whitespace characters of `s`. */
  function TrailingSpace(s: string): (n: nat)
    ensures n <= |s|
    ensures forall k | |s| - n <= k < |s| :: IsSpace(s[k])
    ensures n < |s| ==> !IsSpace(s[|s| - n - 1])
  {
    if |s| == 0 || !IsSpace(s[|s| - 1]) then 0
    else
      var n := 1 + TrailingSpace(s[..|s| - 1]);
      assert forall k | |s| - n <= k < |s| - 1 :: s[k] == s[..|s| - 1][k];
      n
  }

  /** Python's `str.strip()`: the text between the leading and the trailing
      whitespace. */
  function Strip(s: string): (r: string)
    ensures exists lead, trail ::
      s == lead + r + trail && AllSpace(lead) && AllSpace(trail)
    ensures r == [] || (!IsSpace(r[0]) && !IsSpace(r[|r| - 1]))
  {
    var a := LeadingSpace(s);
    var t := s[a..];
    var b := TrailingSpace(t);
    StripParts(s, a, t, b);
    t[..|t| - b]
  }

  /** The three parts `Strip` cuts a string into. */
  lemma StripParts(s: string, a: nat, t: string, b: nat)
    requires a == LeadingSpace(s) && t == s[a..] && b == TrailingSpace(t)
    ensures var r := t[..|t| - b];
            && s == s[..a] + r + t[|t| - b..]
            && AllSpace(s[..a]) && AllSpace(t[|t| - b..])
            && (r == [] || (!IsSpace(r[0]) && !IsSpace(r[|r| - 1])))
  {
    var e := a + |t| - b;
    assert t[..|t| - b] == s[a..e];
    assert t[|t| - b..] == s[e..];
    Concat3(s, a, e);
  }

  lemma Concat3(s: string, i: nat, j: nat)
    requires i <= j <= |s|
    ensures s == s[..i] + s[i..j] + s[j..]
  {
    assert s[..j] == s[..i] + s[i..j];
    assert s == s[..j] + s[j..];
  }

  lemma {:induction false} LeadingSpaceOf(lead: string, rest: string)
    requires AllSpace(lead) && (rest == [] || !IsSpace(rest[0]))
    ensures LeadingSpace(lead + rest) == |lead|
  {
    if lead != [] {
      assert (lead + rest)[1..] == lead[1..] + rest;
      LeadingSpaceOf(lead[1..], rest);
    } else {
      assert lead + rest == rest;
    }
  }

  lemma {:induction false} TrailingSpaceOf(rest: string, trail: string)
    requires AllSpace(trail) && (rest == [] || !IsSpace(rest[|rest| - 1]))
    ensures TrailingSpace(rest + trail) == |trail|
  {
    if trail != [] {
      var s := rest + trail;
      assert s[..|s| - 1] == rest + trail[..|trail| - 1];
      TrailingSpaceOf(rest, trail[..|trail| - 1]);
    } else {
      assert rest + trail == rest;
    }
  }

  /** `strip()` removes exactly the surrounding whitespace: text that does
      not begin or end with whitespace comes back unchanged from any
      padding. */
  lemma StripUnique(lead: string, r: string, trail: string)
    requires AllSpace(lead) && AllSpace(trail)
    requires r != [] && !IsSpace(r[0]) && !IsSpace(r[|r| - 1])
    ensures Strip(lead + r + trail) == r
  {
    var s := lead + r + trail;
    assert s == lead + (r + trail);
    LeadingSpaceOf(lead, r + trail);
    var t := s[|lead|..];
    assert t == r + trail;
    TrailingSpaceOf(r, trail);
    assert t[..|t| - |trail|] == r;
  }

  /** `strip()` leaves nothing exactly of an all-whitespace string. */
  lemma {:induction false} StripBlank(s: string)
    ensures Strip(s) == [] <==> AllSpace(s)
  {
    if AllSpace(s) {
      assert s + [] == s;
      LeadingSpaceOf(s, []);
      assert s[|s|..] == [];
    }
  }
}

=== FILE: units.dfy ===
/** `human_bps`: a bit rate scaled by powers of 1000 until it is below
    1000 or the largest unit is reached. The two-decimal formatting is not
    modelled; the scaled value is an exact real. */
module HumanUnits {
  import opened Wrappers

  const UnitNames: seq<string> := ["bps", "Kbps", "Mbps", "Gbps"]

  function Pow1000(n: nat): (p: real)
    ensures p >= 1.0
  {
    if n == 0 then 1.0 else 1000.0 * Pow1000(n - 1)
  }

  /** What is displayed: `N/A`, or a value and the index of its unit. */
  datatype Display = NotAvailable | Scaled(value: real, unit: nat)

  /** The displayed pair represents `bps`: the value times the unit's
      power of 1000 is the input, the value is below 1000 unless the unit
      is the largest, and at least 1 unless it is the smallest. */
  ghost predicate Represents(d: Display, bps: real) {
    && d.Scaled?
    && d.unit < |UnitNames|
    && d.value * Pow1000(d.unit) == bps
    && (d.unit < |UnitNames| - 1 ==> d.value < 1000.0)
    && (d.unit > 0 ==> d.value >= 1.0)
  }

  method HumanBps(bps: Option<real>) returns (d: Display)
    ensures bps.None? <==> d.NotAvailable?
    ensures bps.Some? ==> Represents(d, bps.value)
    ensures bps.Some? && bps.value < 1000.0 ==> d == Scaled(bps.value, 0)
  {
    if bps.None? {
      return NotAvailable;
    }
    var value := bps.value;
    var i := 0;
    while value >= 1000.0 && i < |UnitNames| - 1
      invariant 0 <= i <= |UnitNames| - 1
      invariant value * Pow1000(i) == bps.value
      invariant i > 0 ==> value >= 1.0
      invariant i == 0 ==> value == bps.value
    {
      value := value / 1000.0;
      i := i + 1;
    }
    return Scaled(value, i);
  }

  lemma {:induction false} Pow1000Grows(a: nat, b: nat)
    requires a < b
    ensures Pow1000(b) >= 1000.0 * Pow1000(a)
  {
    if b > a + 1 {
      Pow1000Grows(a, b - 1);
    }
  }

  lemma ProductsOrdered(v1: real, p1: real, v2: real, p2: real)
    requires p1 > 0.0 && v1 < 1000.0 && v2 >= 1.0 && p2 >= 1000.0 * p1
    ensures v1 * p1 < v2 * p2
  {
    assert v1 * p1 < 1000.0 * p1;
    assert (v2 - 1.0) * p2 >= 0.0;
  }

  lemma CancelFactor(v1: real, v2: real, p: real)
    ensures p > 0.0 && v1 * p == v2 * p ==> v1 == v2
  {
    if p > 0.0 && v1 * p == v2 * p {
      assert (v1 - v2) * p == 0.0;
    }
  }

  /** A value below 1000 in a smaller unit stands for less than a value of
      at least 1 in a larger unit. */
  lemma UnitOrder(v1: real, u1: nat, v2: real, u2: nat)
    ensures u1 < u2 && v1 < 1000.0 && v2 >= 1.0 ==> v1 * Pow1000(u1) < v2 * Pow1000(u2)
  {
    if u1 < u2 && v1 < 1000.0 && v2 >= 1.0 {
      Pow1000Grows(u1, u2);
      ProductsOrdered(v1, Pow1000(u1), v2, Pow1000(u2));
    }
  }

  /** At most one displayed pair represents a given rate, so `HumanBps`
      picks the only admissible unit. */
  lemma ScaleUnique(d1: Display, d2: Display, bps: real)
    requires Represents(d1, bps) && Represents(d2, bps)
    ensures d1 == d2
  {
    UnitOrder(d1.value, d1.unit, d2.value, d2.unit);
    UnitOrder(d2.value, d2.unit, d1.value, d1.unit);
    CancelFactor(d1.value, d2.value, Pow1000(d1.unit));
  }

  /** 54000000 bit/s is displayed as 54 Mbps and in no other way. */
  lemma MegabitExample(d: Display)
    requires Represents(d, 54000000.0)
    ensures d == Scaled(54.0, 2)
  {
    assert Represents(Scaled(54.0, 2), 54000000.0);
    ScaleUnique(d, Scaled(54.0, 2), 54000000.0);
  }
}

=== FILE: wrappers.dfy ===
/** Failure-carrying wrapper types shared by the model: Python's `None` and
    raised exceptions are made explicit as values. */
module Wrappers {

  /** `None` or a present value, as Python's `Optional[T]`. */
  datatype Option<+T> = None | Some(value: T)

  /** The outcome of a Python call that may raise: a value, or the exception. */
  datatype Result<+R, +E> = Success(value: R) | Failure(error: E)
}
